=== FILE: README.md ===
# Sales and stock dashboard — a Dafny model

The dashboard reads two tables, sales lines and stock snapshots, from
uploaded CSV or Excel files. It narrows both tables by department,
sub-department, station and a window of calendar days. From what is left it
shows:

- the 100 best-selling products, each with its summed stock across the
  selected stations and an availability label;
- the latest stock snapshot of every (station, product) pair that is out of
  stock;
- the sales lines of one chosen product, for a trend chart.

This project models that row selection and aggregation. It also models how the
files are loaded: the choice of reader by file extension, UTF-8 decoding with a
Latin-1 fallback, and the normalisation of product codes and timestamps. The
project then proves what the dashboard promises about the result.

Modules, one per concern:

- `Wrappers` — `Option` and `Result`.
- `Seqs` — `Filter`, the order-preserving row selection behind every boolean
  mask, with its membership, multiplicity, subsequence, commutation and
  first-element lemmas.
- `Sorting` — a stable insertion sort by a real-valued key, proved sorted, a
  permutation and stable.
- `Tables` — the two row types. A timestamp is an integer count of nanoseconds,
  as pandas stores it. Its calendar day is the floor of the division by the
  nanoseconds in a day. NaN and NaT cells are `None`.
- `Text` — decimal rendering and parsing, ASCII lower-casing, substring search,
  and Python's string order together with `sorted(set(...))`.
- `Utf8` — the strict UTF-8 decoder of section 4 of RFC 3629, with both round
  trips proved.
- `DataLoader` — `load_data` / `read_any` (data_loader.py).
- `Processor` — `filter_data` and `availability_display` (processor.py).
- `App` — the row selection in app.py.
- `Scenarios` — three concrete end-to-end cases:
  - A: 5 + 3 pieces sold and 0 in stock gives 8 and "Out of Stock";
  - B: a code stored as `100.0` joins a code stored as `100`;
  - C: a product absent from the window gets the no-data signal.

Modelling decisions:

- **Latest snapshot per pair.** `sort_values('Date_Stamp')` followed by
  `groupby(...).tail(1)` is modelled as a stable sort by stamp, then "keep a
  row when no later row has its pair".
  - Among snapshots of one pair that share the latest stamp, the model keeps
    the one that comes last in the input. `LatestTieBreak` states this rule.
  - pandas' default sort is not stable, so the source leaves this tie
    unspecified.
  - Every row that passes the window filter has a stamp, so the NaT-last
    placement of the sort never arises.
- **Top-100 list.** The model builds the groups in order of first occurrence,
  then sorts them stably by descending total. The contract does not depend on
  the order of tied totals. It states only what holds whatever that order is:
  - the list is non-increasing;
  - the keys are distinct;
  - every total is the true sum;
  - no product left out of the list outsold one in it.
- **Readers.** The file readers (`pd.read_excel`, `pd.read_csv` on text) and
  the date parser (`pd.to_datetime`) are function parameters. The date parser
  takes two strings: the column's format cell and the cell to read. pandas
  guesses one format per column from its first cell that is neither missing
  nor a null-like string such as "NaT" or "nan". It reads every cell with that
  format, and the parser also decides what null-like cells and "now" or
  "today" become. A loaded table is a `Frame`: a map from column name to text
  cells, and one to timestamp cells.
- **Grouping key.** The code groups by (code, description)
  (processor.py:35), so a code seen under two descriptions gives two ranked
  rows. The model follows it (`SalesKey`).
- **Missing columns.** The code raises `KeyError` at the first use of a
  missing column (app.py:35 for `Major_Department`, app.py:71 for the sales'
  `Branch_Name`). The model's row types always have every column, so this case
  is not represented. The loader's own handling of absent columns is modelled:
  it skips the normalisation of that column.

## Model

| member | source | states |
|---|---|---|
| `Processor.FilterSales` | processor.py:5-8 | a sales line is kept exactly when its station is selected and its day lies in the inclusive window; a missing station or NaT never passes; kept lines keep their multiplicity and their order |
| `Processor.FilterStock` | processor.py:11-14 | the same for stock snapshots and `Date_Stamp` |
| `Processor.LatestPerStation` | processor.py:17-22 | one row per (station, product) pair of the filtered stock; every pair is represented; the kept row carries the pair's maximum stamp; rows come from the input and are in ascending stamp order |
| `Processor.LatestTieBreak` | processor.py:17-22 | of the rows of a pair sharing the kept row's stamp, the kept row is the last in input order |
| `Sorting.SortBy` | processor.py:19 | the result is sorted by the key and is a permutation of the input |
| `Sorting.SortStable` | processor.py:19 | rows with equal keys keep their relative order |
| `Processor.StockSummary` | processor.py:25-30 | a code has an entry exactly when some latest row carries it, and the entry is the sum of those rows' stock with NaN counted as 0 |
| `Processor.AllMissingSumsToZero` | processor.py:25-30 | a code whose latest rows all lack a stock figure keeps its entry, and the entry is 0 |
| `Processor.GroupSales` | processor.py:33-37 | one group per (code, description) with a sale, no key twice, each total the sum of that key's quantities (NaN as 0); lines without a description form no group |
| `Processor.TopProducts` | processor.py:33-40 | at most 100 groups, non-increasing totals, distinct keys, true totals; every group left out sold no more than each group kept |
| `Processor.MergeStock` | processor.py:42-44 | the left join keeps every top row in order, and attaches the code's stock total when the summary has the code and nothing otherwise |
| `Processor.FilterData` | processor.py:3-46 | the whole of `filter_data`: the returned snapshots are the latest per pair of the filtered stock; the ranking has exactly min(number of groups, 100) rows with non-increasing, true totals over the filtered sales and no key twice, and no product left out of it outsold one in it; each row's stock is present exactly when the code has a latest snapshot, and then equals the summed stock |
| `Processor.AvailabilityDisplay` | processor.py:50-54 | the out-of-stock label appears exactly for a missing or non-positive quantity; otherwise the label reads back as "n pcs available" with n the quantity truncated toward zero |
| `Processor.ReadCountExact` | processor.py:54 | a label that reads back as a count is exactly the canonical decimal of that count (no leading zero) followed by " pcs available" |
| `Text.ParseNatCanonical` | processor.py:54 | a digit string without a leading zero is the decimal rendering of its value, so `str(int(qty))` is the only rendering the label can carry |
| `Processor.FractionExample` | processor.py:50-54 | 3.7 pieces read as "3 pcs available" |
| `Processor.WholeExample` | processor.py:50-54 | 100 pieces read as "100 pcs available" |
| `Processor.OutOfStockExamples` | processor.py:50-54 | NaN, negative and zero stock all read as out of stock |
| `Text.NatToStringRoundTrip` | processor.py:54 | the decimal rendering of `int(qty)` parses back to the same number |
| `Scenarios.ScenarioA` | processor.py:3-54 | two sales of 5 and 3 pieces and a stock of 0 rank as one product with 8 sold and 0 in stock, shown as out of stock |
| `DataLoader.NormaliseCode` | data_loader.py:82 | the result is a prefix of the code; exactly one trailing ".0" is removed when present, and nothing changes otherwise |
| `DataLoader.NormaliseIdempotentIff` | data_loader.py:82 | normalising a second time changes nothing exactly when the first result does not itself end in ".0" |
| `DataLoader.JoinKeysMeet` | data_loader.py:81-85 | a code stored as a float ("100.0") and the same code stored as text ("100") become the same join key |
| `DataLoader.NormaliseExamples` | data_loader.py:82 | "100.0" becomes "100", "5.00" is unchanged, "1.0.0" becomes "1.0" |
| `Scenarios.ScenarioB` | data_loader.py:81-85 | after normalisation a sales code "100.0" finds the stock of code "100" on the join |
| `DataLoader.FormatCell` | data_loader.py:76 | the cell pandas guesses a column's date format from: the first cell that is neither missing nor a null-like string ("", "NaT", "nat", "NAT", "nan", "NaN", "NAN", "now", "today"); absent exactly when every cell is one of those |
| `DataLoader.FormatCellExamples` | data_loader.py:76 | a leading "NaT" or "nan" is passed over, so the same cells in a different order take their format from a different cell; a column of only null-like strings has no format cell |
| `DataLoader.CoerceDates` | data_loader.py:75-79 | when the frame has the column as text, every cell is replaced by its parse under the format of the column's format cell (NaN and cells that do not match become NaT); the other columns and the set of column names are unchanged; without the column the frame is unchanged |
| `DataLoader.NormaliseCodes` | data_loader.py:81-85 | when `Product_Code` is present every cell becomes the normalised text of the cell, with NaN rendered "nan"; the other columns are unchanged; without the column the frame is unchanged |
| `DataLoader.NormaliseTables` | data_loader.py:74-87 | normalisation keeps each table's set of columns; a text `Date_Time` (sales) or `Date_Stamp` (stock) column becomes a timestamp column whose cells are that table's own column-wise parse; each `Product_Code` cell becomes the normalised text of the cell, with NaN rendered "nan" |
| `DataLoader.NormaliseLeavesBareTables` | data_loader.py:74-87 | a table with neither column, such as the empty table, comes out unchanged |
| `DataLoader.Extension` | data_loader.py:43 | `os.path.splitext(name)[1]`: a suffix of the name that starts with its only dot and holds no path separator; non-empty exactly when the last path component has a dot, after it no dot, and before it some character other than a dot |
| `DataLoader.ExtensionOfPlainName` | data_loader.py:43 | a plain name "stem.ext" has extension ".ext" |
| `DataLoader.RouteOfPlainName` | data_loader.py:43-46 | a plain file name is routed by its extension alone |
| `DataLoader.RouteIgnoresCase` | data_loader.py:17-22 | ".XLSX" and ".Xls" go to the spreadsheet reader and ".CSV" to the CSV reader; ".txt" and no extension are refused |
| `DataLoader.Latin1` | data_loader.py:61 | Latin-1 decoding never fails and maps each byte to the character with the same code |
| `DataLoader.Latin1RoundTrip` | data_loader.py:61 | the bytes can be recovered from their Latin-1 text |
| `DataLoader.DecodeCsv` | data_loader.py:57-64 | decoding always yields a text: the UTF-8 reading when the bytes are valid UTF-8, else the Latin-1 reading; the error branch of the fallback cannot be reached |
| `DataLoader.AsciiDecodesEitherWay` | data_loader.py:57-61 | pure-ASCII content reads the same under either decoder |
| `DataLoader.Utf8TextReadBack` | data_loader.py:57-58 | text written as UTF-8 is read back exactly |
| `Utf8.SequenceLength` | data_loader.py:58 | the length of the well-formed sequence at the head of the bytes, never more than 4 nor than what is there |
| `Utf8.CodePoint` | data_loader.py:58 | a well-formed sequence decodes to a Unicode scalar value in the range its length allows, so overlong forms and surrogates cannot occur |
| `Utf8.DecodeEncode` | data_loader.py:58 | every string survives encoding followed by strict decoding |
| `Utf8.EncodeDecode` | data_loader.py:58 | every byte string the strict decoder accepts is the encoding of what it returns |
| `Utf8.AsciiDecodes` | data_loader.py:58 | bytes below 0x80 are accepted and decode one-to-one |
| `DataLoader.ReadAny` | data_loader.py:10-69 | no file and an upload without content give the empty table silently; an unsupported extension gives the empty table and its message; a CSV, local or uploaded, is decoded and handed to the CSV reader; a spreadsheet upload fails exactly when the reader fails and otherwise returns the reader's table; a local spreadsheet is read with openpyxl for ".xlsx" and the default engine for ".xls"; every message comes with the empty table |
| `DataLoader.RouteOf` | data_loader.py:46-69 | ".xlsx" and ".xls", in any letter case, go to the spreadsheet reader, ".csv" to the CSV reader, and everything else is refused |
| `Utf8.Decode` | data_loader.py:58 | `content.decode('utf-8')`: a byte string whose first byte starts no well-formed sequence is rejected; an accepted one yields at most one character per byte |
| `DataLoader.UnnamedUploadRefused` | data_loader.py:42-69 | an upload without a name is read as "uploaded", has no extension and is refused |
| `DataLoader.LoadData` | data_loader.py:71-87 | both tables are read and then normalised; no file gives an empty table; at most two messages, and none exactly when neither read reported one |
| `App.Present` | app.py:39 | `dropna()`: a value is listed exactly when some cell of the column holds it |
| `App.DepartmentChoices` | app.py:39 | the department list is strictly ascending and holds exactly the departments present in either table |
| `App.FilterDepartments` | app.py:45-46 | each table keeps exactly its rows whose department is selected, each as often as in the input, in order; a missing department never matches |
| `App.DefaultDepartmentsKeepLabelled` | app.py:39-46 | with the default selection, that is every listed department, only rows without a department are dropped |
| `App.SubDepartmentChoices` | app.py:57 | the sub-department list is strictly ascending and holds exactly the sub-departments present in either table |
| `App.FilterSubDepartments` | app.py:63-64 | each table keeps exactly its rows whose sub-department is selected, each as often as in the input, in order |
| `App.DefaultSubDepartmentsKeepLabelled` | app.py:57-64 | with the default selection only rows without a sub-department are dropped |
| `App.SubDepartmentsWithinDepartments` | app.py:53-64 | a sub-department offered after the department filter belongs to some row of a selected department |
| `Text.SortedUnique` | app.py:39 | `sorted(set(xs))`: strictly ascending in Python's string order, with exactly the values of the input |
| `Text.AscendingListingUnique` | app.py:39 | a set of strings has only one strictly ascending listing |
| `App.StationChoices` | app.py:71 | the station list is strictly ascending and holds exactly the stations present in the sales |
| `App.DateDomain` | app.py:77-82 | absent exactly when no sales line has a timestamp; otherwise every dated line lies in the range and both ends are attained |
| `App.DefaultWindowKeepsDated` | app.py:71-92 | under the sidebar defaults the window filter keeps exactly the sales lines that have a station and a timestamp |
| `App.SearchCodes` | app.py:111-112 | an empty query keeps every row; otherwise a row is kept exactly when its code contains the query ignoring case, each as often as in the input; order is kept |
| `Text.ContainsIgnoringCase` | app.py:112 | `str.contains(q, case=False)` on a literal query: true exactly when the lower-cased query occurs in the lower-cased code |
| `App.Shortfall` | app.py:108 | `fillna(0) <= 0` holds exactly when the availability label is the out-of-stock label |
| `Text.ContainsIffOccurs` | app.py:112 | the substring scan succeeds exactly when the query occurs at some position |
| `App.SearchFindsPiece` | app.py:111-112 | any piece of a row's code, in any letter case, finds the row |
| `App.SearchIgnoresQueryCase` | app.py:111-112 | a query and its lower-cased form select the same rows |
| `App.TopPage` | app.py:105-112 | a top row is shown exactly when it matches the search and, if only shortages are asked for, its availability label is the out-of-stock label; each shown row appears as often as in the input, and the shown rows keep the top list's order |
| `App.ShortfallAndSearchCommute` | app.py:107-112 | applying the shortage filter before or after the search gives the same table |
| `App.RupturesPage` | app.py:125-128 | a latest snapshot is listed exactly when its stock is missing or non-positive and it matches the search; each appears as often as in the input, and the listed rows keep the snapshots' order |
| `App.TrendCandidates` | app.py:151 | the product list is strictly ascending and holds exactly the codes of the window-filtered sales |
| `App.TrendView` | app.py:159-165 | no selection or an empty code shows nothing; the no-data warning of app.py:213-214 shows exactly when no filtered line has the code; otherwise the chart gets the product's lines in order, each as often as in the filtered table, titled with the description of the first line in table order |
| `App.CandidateAlwaysCharts` | app.py:151-163 | a non-empty code picked from the list always has lines to chart |
| `App.DefaultChoice` | app.py:152 | the selection box starts on a listed option, and has none only when the list is empty |
| `App.DefaultSelectionNeverNoData` | app.py:151-163 | on the initial selection the no-data warning never shows |
| `Scenarios.ScenarioC` | app.py:145-214 | with two lines of product "100" in the window, the list is ["100"], "200" gets the no-data signal, and "100" charts both lines titled "Widget" |

## Left out

- Parsing of CSV and Excel content (`pd.read_csv`, `pd.read_excel`) and of
  dates (`pd.to_datetime`): these are parameters of the model. The local-path
  readers and the CSV reader are total functions.
- `DataLoader.ReadAny`: a `pd.read_csv` parse failure (data_loader.py:24 and
  65), for an uploaded or a local file, is not caught by the source and
  propagates out of `load_data`; so does a `pd.read_excel` failure on a local
  path (data_loader.py:21). The model's readers for these cases always return
  a table, so a CSV read never reports a message in the model.
- Typing a loaded `Frame` into rows: the processor and the page work on typed
  rows with every column present, as if the required columns exist.
- `DataLoader.NormaliseCodes`: normalises `Product_Code` only when it is held
  as text. A frame whose `Product_Code` column holds timestamps, which the
  source would render through `astype(str)`, is left alone.
- `DataLoader.NormaliseCode`: a literal test for a final ".0". The regular
  expression `\.0$` also matches before a final newline, so "100.0\n" becomes
  "100\n" in the source. The model does not cover this.
- `App.SearchCodes`: the query is treated as a literal substring.
  `str.contains` reads it as a regular expression, so a query holding
  metacharacters can select differently, and a query that is not a valid
  regular expression, such as "(" or "[", makes it raise `re.error`, which
  app.py:111-112 and 127-128 do not catch.
- `Text.Lower` folds ASCII letters only. Python's `str.lower`, used for the
  extension, folds every Unicode letter, and `str.contains(..., case=False)`
  compiles the query with `re.IGNORECASE`, which also matches Unicode letters
  of either case.
- The trend chart's bucketing by day, week or month, and its drawing
  (app.py:166-212).
- The order of tied totals in the top list, and which tied product makes the
  cut at position 100. pandas' default sort is not stable, so the source does
  not fix either. The contracts hold for any tie order.
- Floating point: quantities and stock are real numbers, so sums carry no
  rounding.
- Streamlit itself:
  - the page selection, the widgets and the result caching;
  - the early stops when a file is missing or a table is empty
    (app.py:22-31);
  - the unguarded first computation of the date domain (app.py:74-75);
  - a date input holding a single date.
- The repeated `astype(str)` on the trend page (app.py:141-142) is not
  modelled separately: after loading, codes are already text.
- Mixed-type department columns, on which `sorted` would raise: all cells are
  text or missing.

=== FILE: app.dfy ===
/** The row selection the dashboard page (app.py) performs around
    `filter_data`: the department and sub-department filters with their
    choice lists, the station list and date domain that seed the sidebar,
    the out-of-stock and search filters of the two table pages, and the
    product choice behind the sales-trend chart. */
module App {
  import opened Wrappers
  import opened Seqs
  import opened Tables
  import opened Text
  import opened Processor

  // ---------------------------------------------------------------------
  // Choice lists: sorted(set(col_a.dropna()) | set(col_b.dropna()))

  /** One column of a table, read through `field`. */
  function Column<T>(rows: seq<T>, field: T -> Option<string>): (c: seq<Option<string>>)
    ensures |c| == |rows|
    ensures forall i :: 0 <= i < |rows| ==> c[i] == field(rows[i])
  {
    seq(|rows|, i requires 0 <= i < |rows| => field(rows[i]))
  }

  /** `dropna()`: the values that are not missing, in order. */
  function Present(column: seq<Option<string>>): (r: seq<string>)
    ensures forall x :: x in r <==> Some(x) in column
    decreases |column|
  {
    if |column| == 0 then []
    else
      var rest := Present(column[1..]);
      assert column == [column[0]] + column[1..];
      if column[0].Some? then [column[0].value] + rest else rest
  }

  lemma PresentInColumn<T>(rows: seq<T>, field: T -> Option<string>, x: string)
    ensures x in Present(Column(rows, field)) <==> exists y :: y in rows && field(y) == Some(x)
  {
    var c := Column(rows, field);
    if Some(x) in c {
      var i :| 0 <= i < |c| && c[i] == Some(x);
      assert rows[i] in rows && field(rows[i]) == Some(x);
    }
    if y :| y in rows && field(y) == Some(x) {
      var i :| 0 <= i < |rows| && rows[i] == y;
      assert c[i] == Some(x);
    }
  }

  /** The sorted union of the present values of one column of each table. */
  function Choices<S, T>(a: seq<S>, fa: S -> Option<string>, b: seq<T>, fb: T -> Option<string>): (r: seq<string>)
    ensures StrictlyAscending(r)
    ensures forall x :: x in r <==>
      (exists y :: y in a && fa(y) == Some(x)) || (exists y :: y in b && fb(y) == Some(x))
  {
    var values := Present(Column(a, fa)) + Present(Column(b, fb));
    forall x ensures x in values <==>
      (exists y :: y in a && fa(y) == Some(x)) || (exists y :: y in b && fb(y) == Some(x))
    {
      PresentInColumn(a, fa, x);
      PresentInColumn(b, fb, x);
    }
    SortedUnique(values)
  }

  /** `df[df[col].isin(selected)]`. */
  function SelectBy<T(!new)>(rows: seq<T>, field: T -> Option<string>, selected: set<string>): (r: seq<T>)
    ensures forall x :: x in r <==> x in rows && IsIn(field(x), selected)
    ensures forall x :: multiset(r)[x] == if IsIn(field(x), selected) then multiset(rows)[x] else 0
    ensures IsSubsequence(r, rows)
  {
    var keep := (x: T) => IsIn(field(x), selected);
    FilterMembership(rows, keep);
    FilterCounts(rows, keep);
    FilterIsSubsequence(rows, keep);
    Filter(rows, keep)
  }

  /** Selecting every listed value (the multiselect default) keeps exactly
      the rows whose value is present (`pa`, `pb`): only rows with a missing
      value go. */
  lemma SelectAllKeepsLabelled<S(!new), T(!new)>(a: seq<S>, fa: S -> Option<string>, pa: S -> bool,
                                                 b: seq<T>, fb: T -> Option<string>, pb: T -> bool)
    requires forall y :: pa(y) == fa(y).Some?
    requires forall y :: pb(y) == fb(y).Some?
    ensures var all := set x | x in Choices(a, fa, b, fb);
      SelectBy(a, fa, all) == Filter(a, pa) && SelectBy(b, fb, all) == Filter(b, pb)
  {
    var all := set x | x in Choices(a, fa, b, fb);
    forall y | y in a ensures IsIn(fa(y), all) == pa(y) {
      if fa(y).Some? {
        assert fa(y).value in Choices(a, fa, b, fb);
      }
    }
    forall y | y in b ensures IsIn(fb(y), all) == pb(y) {
      if fb(y).Some? {
        assert fb(y).value in Choices(a, fa, b, fb);
      }
    }
    FilterCongruent(a, (x: S) => IsIn(fa(x), all), pa);
    FilterCongruent(b, (x: T) => IsIn(fb(x), all), pb);
  }

  // ---------------------------------------------------------------------
  // Departments (app.py:35-46) and sub-departments (app.py:53-64)

  function StockDepartment(s: StockRow): Option<string> { s.majorDepartment }
  function SalesDepartment(r: SalesRow): Option<string> { r.department }
  function StockSubDepartment(s: StockRow): Option<string> { s.departmentName }
  function SalesSubDepartment(r: SalesRow): Option<string> { r.subDepartment }

  predicate HasStockDepartment(s: StockRow) { s.majorDepartment.Some? }
  predicate HasSalesDepartment(r: SalesRow) { r.department.Some? }
  predicate HasStockSubDepartment(s: StockRow) { s.departmentName.Some? }
  predicate HasSalesSubDepartment(r: SalesRow) { r.subDepartment.Some? }

  /** The department list offered: stock's `Major_Department` and sales'
      `Department`, missing values dropped, each once, ascending. */
  function DepartmentChoices(sales: seq<SalesRow>, stock: seq<StockRow>): (r: seq<string>)
    ensures StrictlyAscending(r)
    ensures forall d :: d in r <==>
      (exists s :: s in stock && s.majorDepartment == Some(d)) || (exists x :: x in sales && x.department == Some(d))
  {
    Choices(stock, StockDepartment, sales, SalesDepartment)
  }

  /** Both tables restricted to the selected departments. */
  function FilterDepartments(sales: seq<SalesRow>, stock: seq<StockRow>, selected: set<string>): (r: (seq<SalesRow>, seq<StockRow>))
    ensures forall x :: x in r.0 <==> x in sales && x.department.Some? && x.department.value in selected
    ensures forall s :: s in r.1 <==> s in stock && s.majorDepartment.Some? && s.majorDepartment.value in selected
    ensures forall x :: multiset(r.0)[x] == if IsIn(x.department, selected) then multiset(sales)[x] else 0
    ensures forall s :: multiset(r.1)[s] == if IsIn(s.majorDepartment, selected) then multiset(stock)[s] else 0
    ensures IsSubsequence(r.0, sales) && IsSubsequence(r.1, stock)
  {
    (SelectBy(sales, SalesDepartment, selected), SelectBy(stock, StockDepartment, selected))
  }

  /** With the default selection only rows without a department are dropped. */
  lemma DefaultDepartmentsKeepLabelled(sales: seq<SalesRow>, stock: seq<StockRow>)
    ensures var all := set d | d in DepartmentChoices(sales, stock);
      FilterDepartments(sales, stock, all)
        == (Filter(sales, HasSalesDepartment), Filter(stock, HasStockDepartment))
  {
    SelectAllKeepsLabelled(stock, StockDepartment, HasStockDepartment, sales, SalesDepartment, HasSalesDepartment);
  }

  /** The sub-department list offered: stock's `Department_Name` and sales'
      `SubDepartment`, missing values dropped, each once, ascending. */
  function SubDepartmentChoices(sales: seq<SalesRow>, stock: seq<StockRow>): (r: seq<string>)
    ensures StrictlyAscending(r)
    ensures forall d :: d in r <==>
      (exists s :: s in stock && s.departmentName == Some(d)) || (exists x :: x in sales && x.subDepartment == Some(d))
  {
    Choices(stock, StockSubDepartment, sales, SalesSubDepartment)
  }

  /** Both tables restricted to the selected sub-departments. */
  function FilterSubDepartments(sales: seq<SalesRow>, stock: seq<StockRow>, selected: set<string>): (r: (seq<SalesRow>, seq<StockRow>))
    ensures forall x :: x in r.0 <==> x in sales && x.subDepartment.Some? && x.subDepartment.value in selected
    ensures forall s :: s in r.1 <==> s in stock && s.departmentName.Some? && s.departmentName.value in selected
    ensures forall x :: multiset(r.0)[x] == if IsIn(x.subDepartment, selected) then multiset(sales)[x] else 0
    ensures forall s :: multiset(r.1)[s] == if IsIn(s.departmentName, selected) then multiset(stock)[s] else 0
    ensures IsSubsequence(r.0, sales) && IsSubsequence(r.1, stock)
  {
    (SelectBy(sales, SalesSubDepartment, selected), SelectBy(stock, StockSubDepartment, selected))
  }

  /** With the default selection only rows without a sub-department are dropped. */
  lemma DefaultSubDepartmentsKeepLabelled(sales: seq<SalesRow>, stock: seq<StockRow>)
    ensures var all := set d | d in SubDepartmentChoices(sales, stock);
      FilterSubDepartments(sales, stock, all)
        == (Filter(sales, HasSalesSubDepartment), Filter(stock, HasStockSubDepartment))
  {
    SelectAllKeepsLabelled(stock, StockSubDepartment, HasStockSubDepartment, sales, SalesSubDepartment, HasSalesSubDepartment);
  }

  /** A sub-department offered after the department filter belongs to a row
      of a selected department. */
  lemma SubDepartmentsWithinDepartments(sales: seq<SalesRow>, stock: seq<StockRow>, selected: set<string>, d: string)
    requires d in SubDepartmentChoices(FilterDepartments(sales, stock, selected).0, FilterDepartments(sales, stock, selected).1)
    ensures (exists s :: s in stock && IsIn(s.majorDepartment, selected) && s.departmentName == Some(d))
         || (exists x :: x in sales && IsIn(x.department, selected) && x.subDepartment == Some(d))
  {
  }

  // ---------------------------------------------------------------------
  // Sidebar defaults: stations (app.py:71) and the date domain (app.py:77-82)

  /** `sorted(sales['Branch_Name'].dropna().unique())`. */
  function StationChoices(sales: seq<SalesRow>): (r: seq<string>)
    ensures StrictlyAscending(r)
    ensures forall b :: b in r <==> exists x :: x in sales && x.branch == Some(b)
  {
    var values := Present(Column(sales, (x: SalesRow) => x.branch));
    forall b ensures b in values <==> exists x :: x in sales && x.branch == Some(b) {
      PresentInColumn(sales, (x: SalesRow) => x.branch, b);
    }
    SortedUnique(values)
  }

  /** The first and last calendar day of the sales' `Date_Time`, or None when
      no line has a timestamp (the page then stops with a warning). */
  function DateDomain(sales: seq<SalesRow>): (r: Option<DateRange>)
    ensures r.None? <==> forall x :: x in sales ==> x.dateTime.None?
    ensures r.Some? ==> forall x :: x in sales && x.dateTime.Some? ==> InWindow(x.dateTime, r.value)
    ensures r.Some? ==> exists x :: x in sales && x.dateTime.Some? && DayOf(x.dateTime.value) == r.value.start
    ensures r.Some? ==> exists x :: x in sales && x.dateTime.Some? && DayOf(x.dateTime.value) == r.value.end
    decreases |sales|
  {
    if |sales| == 0 then None
    else
      var rest := DateDomain(sales[1..]);
      assert sales == [sales[0]] + sales[1..];
      if sales[0].dateTime.None? then rest
      else
        var d := DayOf(sales[0].dateTime.value);
        match rest
        case None => Some(DateRange(d, d))
        case Some(w) =>
          Some(DateRange(if d <= w.start then d else w.start, if d >= w.end then d else w.end))
  }

  /** Under the sidebar defaults (every station, the whole date domain) the
      window filter keeps exactly the lines that have a station and a date. */
  lemma DefaultWindowKeepsDated(sales: seq<SalesRow>)
    requires DateDomain(sales).Some?
    ensures var stations := set b | b in StationChoices(sales);
      FilterSales(sales, stations, DateDomain(sales).value)
        == Filter(sales, (x: SalesRow) => x.branch.Some? && x.dateTime.Some?)
  {
    var stations := set b | b in StationChoices(sales);
    var w := DateDomain(sales).value;
    forall x | x in sales
      ensures SaleInScope(x, stations, w) == (x.branch.Some? && x.dateTime.Some?)
    {
      if x.branch.Some? {
        assert x.branch.value in StationChoices(sales);
      }
    }
    FilterCongruent(sales, x => SaleInScope(x, stations, w), (x: SalesRow) => x.branch.Some? && x.dateTime.Some?);
  }

  // ---------------------------------------------------------------------
  // Out-of-stock and search filters (app.py:107-112, 125-128)

  /** `Stock_on_Hand.fillna(0) <= 0`. */
  function Shortfall(q: Option<real>): (b: bool)
    ensures b <==> AvailabilityDisplay(q) == OutOfStockLabel
  {
    q.GetOr(0.0) <= 0.0
  }

  /** The row test of the search: the code contains the query, ignoring case. */
  function Matching<T>(code: T -> string, query: string): T -> bool {
    (x: T) => ContainsIgnoringCase(code(x), query)
  }

  /** `df[df['Product_Code'].str.contains(query, case=False, na=False)]`
      when the query is not empty; an empty query keeps every row. */
  function SearchCodes<T(!new)>(rows: seq<T>, code: T -> string, query: string): (r: seq<T>)
    ensures forall x :: x in r <==> x in rows && (query == "" || ContainsIgnoringCase(code(x), query))
    ensures forall x :: multiset(r)[x] == if query == "" || ContainsIgnoringCase(code(x), query) then multiset(rows)[x] else 0
    ensures IsSubsequence(r, rows)
    ensures query == "" ==> r == rows
  {
    if query == "" then
      SubsequenceReflexive(rows);
      rows
    else
      FilterMembership(rows, Matching(code, query));
      FilterCounts(rows, Matching(code, query));
      FilterIsSubsequence(rows, Matching(code, query));
      Filter(rows, Matching(code, query))
  }

  function RankedCode(r: Ranked): string { r.code }
  function StockCode(s: StockRow): string { s.code }
  predicate RankedShortfall(r: Ranked) { Shortfall(r.stockOnHand) }
  predicate StockShortfall(s: StockRow) { Shortfall(s.stockOnHand) }

  /** The "Top Produits" table: the top list, optionally only the products
      shown as out of stock, then the search. */
  function TopPage(top: seq<Ranked>, onlyRuptures: bool, query: string): (r: seq<Ranked>)
    ensures forall x :: x in r <==>
      (x in top
       && (onlyRuptures ==> AvailabilityDisplay(x.stockOnHand) == OutOfStockLabel)
       && (query == "" || ContainsIgnoringCase(x.code, query)))
    ensures forall x :: multiset(r)[x] == if (onlyRuptures ==> AvailabilityDisplay(x.stockOnHand) == OutOfStockLabel) && (query == "" || ContainsIgnoringCase(x.code, query)) then multiset(top)[x] else 0
    ensures IsSubsequence(r, top)
    ensures !onlyRuptures ==> r == SearchCodes(top, RankedCode, query)
  {
    var shown := if onlyRuptures then Filter(top, RankedShortfall) else top;
    FilterMembership(top, RankedShortfall);
    FilterCounts(top, RankedShortfall);
    FilterIsSubsequence(top, RankedShortfall);
    SubsequenceReflexive(top);
    SubsequenceTransitive(SearchCodes(shown, RankedCode, query), shown, top);
    SearchCodes(shown, RankedCode, query)
  }

  /** The "Ruptures" table: the latest snapshots with missing or non-positive
      stock, then the search. */
  function RupturesPage(latest: seq<StockRow>, query: string): (r: seq<StockRow>)
    ensures forall s :: s in r <==>
      (s in latest && OutOfStock(s.stockOnHand) && (query == "" || ContainsIgnoringCase(s.code, query)))
    ensures forall s :: multiset(r)[s] == if OutOfStock(s.stockOnHand) && (query == "" || ContainsIgnoringCase(s.code, query)) then multiset(latest)[s] else 0
    ensures IsSubsequence(r, latest)
  {
    var ruptures := Filter(latest, StockShortfall);
    FilterMembership(latest, StockShortfall);
    FilterCounts(latest, StockShortfall);
    FilterIsSubsequence(latest, StockShortfall);
    SubsequenceTransitive(SearchCodes(ruptures, StockCode, query), ruptures, latest);
    SearchCodes(ruptures, StockCode, query)
  }

  /** The out-of-stock box and the search may be applied in either order. */
  lemma ShortfallAndSearchCommute(top: seq<Ranked>, query: string)
    ensures TopPage(top, true, query)
      == Filter(SearchCodes(top, RankedCode, query), RankedShortfall)
  {
    if query != "" {
      FilterCommutes(top, RankedShortfall, Matching(RankedCode, query));
    }
  }

  lemma {:induction false} LowerAppend(a: string, b: string)
    ensures Lower(a + b) == Lower(a) + Lower(b)
  {
  }

  lemma LowerIdempotent(s: string)
    ensures Lower(Lower(s)) == Lower(s)
  {
  }

  /** Any piece of a code finds its row, whatever the letter case. */
  lemma SearchFindsPiece<T(!new)>(rows: seq<T>, code: T -> string, x: T, before: string, piece: string, after: string)
    requires x in rows && code(x) == before + piece + after
    ensures x in SearchCodes(rows, code, piece)
    ensures x in SearchCodes(rows, code, Lower(piece))
  {
    LowerAppend(before + piece, after);
    LowerAppend(before, piece);
    var s := Lower(code(x));
    assert s == Lower(before) + Lower(piece) + Lower(after);
    var i := |before|;
    assert s[i..i + |piece|] == Lower(piece);
    assert OccursAt(Lower(piece), s, i);
    ContainsIffOccurs(s, Lower(piece));
    LowerIdempotent(piece);
  }

  /** Searching is blind to the letter case of the query. */
  lemma SearchIgnoresQueryCase<T(!new)>(rows: seq<T>, code: T -> string, query: string)
    ensures SearchCodes(rows, code, query) == SearchCodes(rows, code, Lower(query))
  {
    LowerIdempotent(query);
    if query != "" {
      assert Lower(query) != "" by { assert |Lower(query)| == |query|; }
      FilterCongruent(rows, Matching(code, query), Matching(code, Lower(query)));
    }
  }

  // ---------------------------------------------------------------------
  // Sales trend: product choice and the no-data signal (app.py:145-163, 213-214)

  /** `sorted(filtered_sales['Product_Code'].unique())`. */
  function TrendCandidates(filtered: seq<SalesRow>): (r: seq<string>)
    ensures StrictlyAscending(r)
    ensures forall c :: c in r <==> exists x :: x in filtered && x.code == c
  {
    var codes := seq(|filtered|, i requires 0 <= i < |filtered| => filtered[i].code);
    forall c ensures c in codes <==> exists x :: x in filtered && x.code == c {
      if c in codes {
        var i :| 0 <= i < |codes| && codes[i] == c;
        assert filtered[i] in filtered;
      }
      if x :| x in filtered && x.code == c {
        var i :| 0 <= i < |filtered| && filtered[i] == x;
        assert codes[i] == c;
      }
    }
    SortedUnique(codes)
  }

  /** What the trend section shows: nothing without a selection, the
      no-data warning, or the chart titled with the description of the
      product's first line. */
  datatype Trend = NoSelection | NoData | Chart(name: Option<string>, rows: seq<SalesRow>)

  /** `if selected_product:` then the product's lines within the window. */
  function TrendView(filtered: seq<SalesRow>, selected: Option<string>): (t: Trend)
    ensures t.NoSelection? <==> selected.None? || selected.value == ""
    ensures t.NoData? <==>
      (selected.Some? && selected.value != "" && forall x :: x in filtered ==> x.code != selected.value)
    ensures t.Chart? ==>
      (|t.rows| > 0 && IsSubsequence(t.rows, filtered)
       && forall x :: x in t.rows <==> x in filtered && x.code == selected.value)
    ensures t.Chart? ==>
      forall x :: multiset(t.rows)[x] == if x.code == selected.value then multiset(filtered)[x] else 0
    ensures t.Chart? ==>
      (exists i :: 0 <= i < |filtered| && filtered[i].code == selected.value
         && t.name == filtered[i].description && forall j :: 0 <= j < i ==> filtered[j].code != selected.value)
  {
    if selected.None? || selected.value == "" then NoSelection
    else
      var keep := (x: SalesRow) => x.code == selected.value;
      var rows := Filter(filtered, keep);
      FilterMembership(filtered, keep);
      FilterIsSubsequence(filtered, keep);
      FilterCounts(filtered, keep);
      if |rows| == 0 then NoData
      else
        assert rows[0] in rows;
        FilterFirst(filtered, keep);
        Chart(rows[0].description, rows)
  }

  /** A product picked from the list always has lines to chart. */
  lemma CandidateAlwaysCharts(filtered: seq<SalesRow>, c: string)
    requires c in TrendCandidates(filtered) && c != ""
    ensures TrendView(filtered, Some(c)).Chart?
  {
  }

  /** `st.selectbox` starts on the first option, or None when there is none. */
  function DefaultChoice(options: seq<string>): (r: Option<string>)
    ensures r.None? <==> |options| == 0
    ensures r.Some? ==> r.value in options
  {
    if |options| == 0 then None else Some(options[0])
  }

  /** On the initial selection the no-data warning never shows. */
  lemma DefaultSelectionNeverNoData(filtered: seq<SalesRow>)
    ensures !TrendView(filtered, DefaultChoice(TrendCandidates(filtered))).NoData?
  {
    var choice := DefaultChoice(TrendCandidates(filtered));
    if choice.Some? && choice.value != "" {
      CandidateAlwaysCharts(filtered, choice.value);
    }
  }
}

=== FILE: data_loader.dfy ===
/** `load_data` (data_loader.py): the dispatch on the file extension inside
    `read_any`, the UTF-8 then Latin-1 decoding of uploaded CSV content, and
    the normalisation of the loaded tables (timestamp coercion and the
    stripping of a trailing ".0" from product codes). The readers themselves
    (`pd.read_excel`, `pd.read_csv`) and `pd.to_datetime` are parameters. */
module DataLoader {
  import opened Wrappers
  import opened Tables
  import opened Text
  import Utf8

  type Bytes = seq<Utf8.Byte>

  // ---------------------------------------------------------------------
  // Product-code normalisation (data_loader.py:81-85)

  const ZeroSuffix: string := ".0"

  predicate EndsWithZero(s: string) {
    |s| >= 2 && s[|s| - 2..] == ZeroSuffix
  }

  /** `str.replace(r'\.0$', '', regex=True)`: removes one trailing ".0". */
  function NormaliseCode(s: string): (r: string)
    ensures r <= s
    ensures EndsWithZero(s) ==> r + ZeroSuffix == s
    ensures !EndsWithZero(s) ==> r == s
  {
    if EndsWithZero(s) then s[..|s| - 2] else s
  }

  /** Normalising twice changes nothing exactly when the first result no
      longer ends in ".0"; "1.0.0" becomes "1.0" and then "1". */
  lemma NormaliseIdempotentIff(s: string)
    ensures NormaliseCode(NormaliseCode(s)) == NormaliseCode(s) <==> !EndsWithZero(NormaliseCode(s))
  {
    var r := NormaliseCode(s);
    if EndsWithZero(r) {
      assert |NormaliseCode(r)| == |r| - 2;
    }
  }

  /** A code read as a float ("100.0") and the same code read as an integer
      or text ("100") meet on one join key. */
  lemma JoinKeysMeet(code: string)
    requires !EndsWithZero(code)
    ensures NormaliseCode(code + ZeroSuffix) == NormaliseCode(code) == code
  {
    assert (code + ZeroSuffix)[..|code|] == code;
  }

  lemma NormaliseExamples()
    ensures NormaliseCode("100.0") == "100"
    ensures NormaliseCode("100") == "100"
    ensures NormaliseCode("5.00") == "5.00"
    ensures NormaliseCode("1.0.0") == "1.0" && NormaliseCode("1.0") == "1"
  {
    assert "100.0"[3..] == ".0";
    assert "5.00"[2..] != ".0";
    assert "1.0.0"[3..] == ".0";
    assert "1.0"[1..] == ".0";
  }

  // ---------------------------------------------------------------------
  // Loaded tables and their normalisation (data_loader.py:74-87)

  /** A pandas frame as the loader sees it: the columns that hold text (each
      cell rendered as its string, None for NaN) and the columns that hold
      timestamps (None for NaT). */
  datatype Frame = Frame(text: map<string, seq<Option<string>>>, times: map<string, seq<Option<Instant>>>)

  /** No column is both a text and a timestamp column. */
  predicate WellFormed(f: Frame) {
    forall c :: c in f.text ==> c !in f.times
  }

  /** `pd.DataFrame()`: no columns at all. */
  const EmptyFrame: Frame := Frame(map[], map[])

  predicate HasColumn(f: Frame, name: string) {
    name in f.text || name in f.times
  }

  /** `astype(str)`: NaN becomes the text "nan". */
  function AsStr(cell: Option<string>): string {
    cell.GetOr("nan")
  }

  /** The strings pandas' format guess passes over as null-like
      (`tslib.first_non_null`). */
  predicate NullLike(s: string) {
    s in {"", "NaT", "nat", "NAT", "nan", "NaN", "NAN", "now", "today"}
  }

  /** A cell the format guess passes over: missing, or null-like text. */
  predicate Skipped(cell: Option<string>) {
    cell.None? || NullLike(cell.value)
  }

  /** The cell from which pandas infers the date format of a whole column:
      the first one that is neither missing nor null-like. */
  function FormatCell(cells: seq<Option<string>>): (r: Option<string>)
    ensures r.None? <==> forall i :: 0 <= i < |cells| ==> Skipped(cells[i])
    ensures r.Some? ==>
      exists i :: 0 <= i < |cells| && cells[i] == r && !NullLike(r.value)
        && forall j :: 0 <= j < i ==> Skipped(cells[j])
  {
    if |cells| == 0 then None
    else if !Skipped(cells[0]) then cells[0]
    else
      var rest := FormatCell(cells[1..]);
      assert forall i :: 1 <= i < |cells| ==> cells[i] == cells[1..][i - 1];
      if rest.Some? then
        var i :| 0 <= i < |cells[1..]| && cells[1..][i] == rest && !NullLike(rest.value)
          && forall j :: 0 <= j < i ==> Skipped(cells[1..][j]);
        assert cells[i + 1] == rest;
        rest
      else rest
  }

  /** A leading "NaT" is passed over, so two columns holding the same cells
      in a different order take their format from different cells. */
  lemma FormatCellExamples()
    ensures FormatCell([None, Some("NaT"), Some("01/02/2024"), Some("13/02/2024")]) == Some("01/02/2024")
    ensures FormatCell([Some("nan"), Some("13/02/2024"), Some("01/02/2024")]) == Some("13/02/2024")
    ensures FormatCell([Some(""), Some("today")]) == None
  {
    assert NullLike("NaT") && NullLike("nan") && NullLike("") && NullLike("today");
    assert !NullLike("01/02/2024") && !NullLike("13/02/2024");
  }

  /** The date of one cell of a text column under `pd.to_datetime(col,
      errors='coerce')`: a missing cell is NaT; any other cell is read by
      `parse` with the format pandas infers from the column's format cell
      (its first argument, "" when every cell is skipped), and is NaT (None)
      when it does not match that format. */
  function CoerceCell(cells: seq<Option<string>>, i: nat, parse: (string, string) -> Option<Instant>): Option<Instant>
    requires i < |cells|
  {
    if cells[i].None? then None else parse(FormatCell(cells).GetOr(""), cells[i].value)
  }

  /** `pd.to_datetime(col, errors='coerce')` applied to a text column when
      the frame has it. A column that already holds timestamps is left as is. */
  function CoerceDates(f: Frame, column: string, parse: (string, string) -> Option<Instant>): (r: Frame)
    ensures forall c :: HasColumn(r, c) <==> HasColumn(f, c)
    ensures WellFormed(f) ==> WellFormed(r)
    ensures column in f.text ==>
      column in r.times && |r.times[column]| == |f.text[column]|
      && forall i :: 0 <= i < |f.text[column]| ==>
           r.times[column][i] == (if f.text[column][i].None? then None
                                  else parse(FormatCell(f.text[column]).GetOr(""), f.text[column][i].value))
    ensures forall c :: c in f.text && c != column ==> c in r.text && r.text[c] == f.text[c]
    ensures forall c :: c in f.times && c != column ==> c in r.times && r.times[c] == f.times[c]
    ensures column !in f.text ==> r == f
  {
    if column in f.text then
      var cells := f.text[column];
      var coerced := seq(|cells|, i requires 0 <= i < |cells| => CoerceCell(cells, i, parse));
      Frame(f.text - {column}, f.times[column := coerced])
    else f
  }

  const CodeColumn: string := "Product_Code"

  /** `Product_Code` rendered with `astype(str)` and stripped of one trailing
      ".0", when the frame has the column as text; nothing else changes. */
  function NormaliseCodes(f: Frame): (r: Frame)
    ensures forall c :: HasColumn(r, c) <==> HasColumn(f, c)
    ensures WellFormed(f) ==> WellFormed(r)
    ensures r.times == f.times
    ensures r.text.Keys == f.text.Keys
    ensures forall c :: c in f.text && c != CodeColumn ==> r.text[c] == f.text[c]
    ensures CodeColumn in f.text ==>
      |r.text[CodeColumn]| == |f.text[CodeColumn]|
      && forall i :: 0 <= i < |f.text[CodeColumn]| ==>
           r.text[CodeColumn][i] == Some(NormaliseCode(AsStr(f.text[CodeColumn][i])))
    ensures CodeColumn !in f.text ==> r == f
  {
    if CodeColumn in f.text then
      var cells := f.text[CodeColumn];
      var codes := seq(|cells|, i requires 0 <= i < |cells| => Some(NormaliseCode(AsStr(cells[i]))));
      f.(text := f.text[CodeColumn := codes])
    else f
  }

  /** The normalisation `load_data` applies to the two tables it read. */
  function NormaliseTables(sales: Frame, stock: Frame, parse: (string, string) -> Option<Instant>): (r: (Frame, Frame))
    ensures forall c :: HasColumn(r.0, c) <==> HasColumn(sales, c)
    ensures forall c :: HasColumn(r.1, c) <==> HasColumn(stock, c)
    ensures WellFormed(sales) ==> WellFormed(r.0)
    ensures WellFormed(stock) ==> WellFormed(r.1)
    ensures "Date_Time" in sales.text ==> "Date_Time" in r.0.times && "Date_Time" !in r.0.text
    ensures "Date_Stamp" in stock.text ==> "Date_Stamp" in r.1.times && "Date_Stamp" !in r.1.text
    ensures "Date_Time" in sales.text ==>
      |r.0.times["Date_Time"]| == |sales.text["Date_Time"]|
      && forall i :: 0 <= i < |sales.text["Date_Time"]| ==>
           r.0.times["Date_Time"][i] == (if sales.text["Date_Time"][i].None? then None
                                         else parse(FormatCell(sales.text["Date_Time"]).GetOr(""), sales.text["Date_Time"][i].value))
    ensures "Date_Stamp" in stock.text ==>
      |r.1.times["Date_Stamp"]| == |stock.text["Date_Stamp"]|
      && forall i :: 0 <= i < |stock.text["Date_Stamp"]| ==>
           r.1.times["Date_Stamp"][i] == (if stock.text["Date_Stamp"][i].None? then None
                                          else parse(FormatCell(stock.text["Date_Stamp"]).GetOr(""), stock.text["Date_Stamp"][i].value))
    ensures CodeColumn in sales.text ==>
      CodeColumn in r.0.text && |r.0.text[CodeColumn]| == |sales.text[CodeColumn]|
      && forall i :: 0 <= i < |r.0.text[CodeColumn]| ==>
           r.0.text[CodeColumn][i] == Some(NormaliseCode(AsStr(sales.text[CodeColumn][i])))
    ensures CodeColumn in stock.text ==>
      CodeColumn in r.1.text && |r.1.text[CodeColumn]| == |stock.text[CodeColumn]|
      && forall i :: 0 <= i < |r.1.text[CodeColumn]| ==>
           r.1.text[CodeColumn][i] == Some(NormaliseCode(AsStr(stock.text[CodeColumn][i])))
  {
    (NormaliseCodes(CoerceDates(sales, "Date_Time", parse)),
     NormaliseCodes(CoerceDates(stock, "Date_Stamp", parse)))
  }

  /** A table with neither the date column nor a text `Product_Code` column
      (the empty table in particular) comes out unchanged. */
  lemma NormaliseLeavesBareTables(sales: Frame, stock: Frame, parse: (string, string) -> Option<Instant>)
    requires "Date_Time" !in sales.text && CodeColumn !in sales.text
    requires "Date_Stamp" !in stock.text && CodeColumn !in stock.text
    ensures NormaliseTables(sales, stock, parse) == (sales, stock)
  {
  }

  // ---------------------------------------------------------------------
  // Extension dispatch (data_loader.py:10-69)

  /** The index of the last `c` in `s`, -1 when there is none (`str.rfind`). */
  function LastIndex(s: string, c: char): (i: int)
    ensures -1 <= i < |s|
    ensures i >= 0 ==> s[i] == c
    ensures forall j :: i < j < |s| ==> s[j] != c
    decreases |s|
  {
    if |s| == 0 then -1
    else if s[|s| - 1] == c then |s| - 1
    else LastIndex(s[..|s| - 1], c)
  }

  /** `os.path.splitext(name)[1]` on POSIX: from the last dot of the last path
      component, unless everything before that dot in the component is dots. */
  function Extension(name: string): (ext: string)
    ensures ext == "" || (ext[0] == '.' && |ext| <= |name| && name[|name| - |ext|..] == ext)
    ensures forall i :: 0 < i < |ext| ==> ext[i] != '.' && ext[i] != '/'
    ensures ext != "" <==>
      (exists i, j :: 0 <= i < j < |name| && name[j] == '.' && name[i] != '.'
         && (forall k :: i <= k < |name| ==> name[k] != '/')
         && (forall k :: j < k < |name| ==> name[k] != '.'))
  {
    var sep := LastIndex(name, '/');
    var dot := LastIndex(name, '.');
    if dot > sep && exists k :: sep < k < dot && name[k] != '.' then name[dot..] else ""
  }

  /** A file name "stem.ext" whose stem is a plain name has extension ".ext". */
  lemma ExtensionOfPlainName(stem: string, ext: string)
    requires |stem| > 0 && stem[0] != '.'
    requires forall i :: 0 <= i < |stem| ==> stem[i] != '/'
    requires forall i :: 0 <= i < |ext| ==> ext[i] != '.' && ext[i] != '/'
    ensures Extension(stem + "." + ext) == "." + ext
  {
    var name := stem + "." + ext;
    var dot := |stem|;
    assert name[dot] == '.';
    assert forall j :: dot < j < |name| ==> name[j] == ext[j - dot - 1];
    assert LastIndex(name, '.') == dot;
    assert forall j :: 0 <= j < |name| ==> name[j] != '/';
    assert LastIndex(name, '/') == -1;
    assert name[0] == stem[0];
    assert name[dot..] == "." + ext;
  }

  /** The reader a lower-cased extension selects. */
  datatype Route = Spreadsheet | DelimitedText | Unsupported

  /** `ext = ....lower()` then `.xlsx`/`.xls`, `.csv`, anything else. */
  function RouteOf(ext: string): (r: Route)
    ensures r == Spreadsheet <==> Lower(ext) == ".xlsx" || Lower(ext) == ".xls"
    ensures r == DelimitedText <==> Lower(ext) == ".csv"
  {
    var e := Lower(ext);
    if e == ".xlsx" || e == ".xls" then Spreadsheet
    else if e == ".csv" then DelimitedText
    else Unsupported
  }

  /** A plain file name routes by its extension alone. */
  lemma RouteOfPlainName(stem: string, ext: string)
    requires |stem| > 0 && stem[0] != '.'
    requires forall i :: 0 <= i < |stem| ==> stem[i] != '/'
    requires forall i :: 0 <= i < |ext| ==> ext[i] != '.' && ext[i] != '/'
    ensures RouteOf(Extension(stem + "." + ext)) == RouteOf("." + ext)
  {
    ExtensionOfPlainName(stem, ext);
  }

  /** The extension is compared after lower-casing. */
  lemma RouteIgnoresCase()
    ensures RouteOf(".XLSX") == Spreadsheet
    ensures RouteOf(".Xls") == Spreadsheet
    ensures RouteOf(".CSV") == DelimitedText
    ensures RouteOf(".txt") == Unsupported
    ensures RouteOf("") == Unsupported
  {
    assert Lower(".XLSX") == ".xlsx";
    assert Lower(".Xls") == ".xls";
    assert Lower(".CSV") == ".csv";
    assert Lower(".txt") == ".txt";
  }

  // ---------------------------------------------------------------------
  // Decoding uploaded CSV content (data_loader.py:55-65)

  /** `bytes.decode('latin1')`: every byte becomes the character with the
      same code, so it never fails. */
  function Latin1(b: Bytes): (s: string)
    ensures |s| == |b|
    ensures forall i :: 0 <= i < |b| ==> s[i] as int == b[i]
  {
    seq(|b|, i requires 0 <= i < |b| => b[i] as char)
  }

  function Latin1Encode(s: string): Bytes
    requires forall i :: 0 <= i < |s| ==> s[i] as int < 256
  {
    seq(|s|, i requires 0 <= i < |s| => s[i] as int)
  }

  /** Latin-1 loses nothing: the bytes can always be recovered. */
  lemma Latin1RoundTrip(b: Bytes)
    ensures Latin1Encode(Latin1(b)) == b
  {
  }

  /** UTF-8 first; Latin-1 only when UTF-8 fails. The `except` around the
      Latin-1 attempt is dead code: the outcome is always a text. */
  function DecodeCsv(content: Bytes): (r: Result<string, string>)
    ensures r.Success?
    ensures Utf8.Decode(content).Some? ==> r.value == Utf8.Decode(content).value
    ensures Utf8.Decode(content).None? ==>
      |r.value| == |content| && forall i :: 0 <= i < |content| ==> r.value[i] as int == content[i]
  {
    match Utf8.Decode(content)
    case Some(text) => Success(text)
    case None => Success(Latin1(content))
  }

  /** Pure-ASCII content reads the same whichever decoder is used. */
  lemma AsciiDecodesEitherWay(content: Bytes)
    requires forall i :: 0 <= i < |content| ==> content[i] < 0x80
    ensures DecodeCsv(content).value == Latin1(content)
  {
    Utf8.AsciiDecodes(content);
  }

  /** Text written as UTF-8 is read back as written. */
  lemma Utf8TextReadBack(text: string)
    ensures DecodeCsv(Utf8.Encode(text)) == Success(text)
  {
    Utf8.DecodeEncode(text);
  }

  // ---------------------------------------------------------------------
  // read_any (data_loader.py:10-69)

  /** What `load_data` may be handed for one table. */
  datatype Source =
    | NoFile
    | LocalPath(path: string, bytes: Bytes)
    | Upload(name: Option<string>, content: Option<Bytes>)

  datatype Engine = Openpyxl | Xlrd | DefaultEngine

  /** The foreign readers `read_any` calls. `excel` reads uploaded bytes and
      may fail with a message (the upload branch catches it); `excelFile`
      reads a local path; `csv` parses decoded text. A local path's
      `bytes` are the file's bytes, which `pd.read_csv` decodes with the
      same UTF-8 then Latin-1 fallback. */
  datatype Readers = Readers(
    excel: (Engine, Bytes) -> Result<Frame, string>,
    excelFile: (Engine, string) -> Frame,
    csv: string -> Frame)

  /** A read table and the error message shown with `st.error`, if any. */
  datatype Read = Read(frame: Frame, error: Option<string>)

  function UploadName(name: Option<string>): string {
    name.GetOr("uploaded")
  }

  function ReadAny(source: Source, readers: Readers): (r: Read)
    ensures source.NoFile? ==> r == Read(EmptyFrame, None)
    ensures source.Upload? && source.content.None? ==> r == Read(EmptyFrame, None)
    ensures source.Upload? && source.content.Some? ==>
      var ext := Extension(UploadName(source.name));
      && (RouteOf(ext) == Unsupported ==>
            r == Read(EmptyFrame, Some("Format de fichier non supporté : " + Lower(ext))))
      && (RouteOf(ext) == DelimitedText ==> r.error.None?)
      && (RouteOf(ext) == Spreadsheet ==>
            (r.error.None? <==> readers.excel(if Lower(ext) == ".xlsx" then Openpyxl else Xlrd, source.content.value).Success?))
    ensures source.Upload? && source.content.Some? && RouteOf(Extension(UploadName(source.name))) == Spreadsheet ==>
      var res := readers.excel(if Lower(Extension(UploadName(source.name))) == ".xlsx" then Openpyxl else Xlrd, source.content.value);
      res.Success? ==> r == Read(res.value, None)
    ensures source.LocalPath? && RouteOf(Extension(source.path)) == Spreadsheet ==>
      r == Read(readers.excelFile(if Lower(Extension(source.path)) == ".xlsx" then Openpyxl else DefaultEngine, source.path), None)
    ensures source.LocalPath? && RouteOf(Extension(source.path)) == DelimitedText ==>
      r == Read(readers.csv(DecodeCsv(source.bytes).value), None)
    ensures source.Upload? && source.content.Some? && RouteOf(Extension(UploadName(source.name))) == DelimitedText ==>
      r == Read(readers.csv(DecodeCsv(source.content.value).value), None)
    ensures source.LocalPath? && RouteOf(Extension(source.path)) == Unsupported ==>
      r == Read(EmptyFrame, Some("Format non supporté (local path): " + Lower(Extension(source.path))))
    ensures r.error.Some? ==> r.frame == EmptyFrame
  {
    match source
    case NoFile => Read(EmptyFrame, None)
    case LocalPath(path, bytes) =>
      var ext := Lower(Extension(path));
      (match RouteOf(Extension(path))
       case Spreadsheet => Read(readers.excelFile(if ext == ".xlsx" then Openpyxl else DefaultEngine, path), None)
       case DelimitedText => Read(readers.csv(DecodeCsv(bytes).value), None)
       case Unsupported => Read(EmptyFrame, Some("Format non supporté (local path): " + ext)))
    case Upload(name, content) =>
      if content.None? then Read(EmptyFrame, None)
      else
        var filename := UploadName(name);
        var ext := Lower(Extension(filename));
        match RouteOf(Extension(filename))
        case Spreadsheet =>
          (match readers.excel(if ext == ".xlsx" then Openpyxl else Xlrd, content.value)
           case Success(frame) => Read(frame, None)
           case Failure(e) => Read(EmptyFrame, Some("Erreur lecture Excel (" + filename + "): " + e)))
        case DelimitedText =>
          (match DecodeCsv(content.value)
           case Success(text) => Read(readers.csv(text), None)
           case Failure(e) => Read(EmptyFrame, Some("Erreur décodage CSV (" + filename + "): " + e)))
        case Unsupported => Read(EmptyFrame, Some("Format de fichier non supporté : " + ext))
  }

  /** An upload without a name has no extension and is refused. */
  lemma UnnamedUploadRefused(content: Bytes, readers: Readers)
    ensures ReadAny(Upload(None, Some(content)), readers).frame == EmptyFrame
    ensures ReadAny(Upload(None, Some(content)), readers).error.Some?
  {
    assert LastIndex("uploaded", '.') == -1;
    assert Extension("uploaded") == "";
  }

  /** `load_data`: both tables read, their messages collected, then normalised. */
  datatype Loaded = Loaded(sales: Frame, stock: Frame, errors: seq<string>)

  function LoadData(salesSource: Source, stockSource: Source, readers: Readers, parse: (string, string) -> Option<Instant>): (r: Loaded)
    ensures |r.errors| <= 2
    ensures (r.sales, r.stock) == NormaliseTables(ReadAny(salesSource, readers).frame, ReadAny(stockSource, readers).frame, parse)
    ensures r.errors == [] <==> ReadAny(salesSource, readers).error.None? && ReadAny(stockSource, readers).error.None?
    ensures salesSource.NoFile? ==> r.sales == EmptyFrame
    ensures stockSource.NoFile? ==> r.stock == EmptyFrame
  {
    var salesRead := ReadAny(salesSource, readers);
    var stockRead := ReadAny(stockSource, readers);
    var errors := (if salesRead.error.Some? then [salesRead.error.value] else [])
      + (if stockRead.error.Some? then [stockRead.error.value] else []);
    var tables := NormaliseTables(salesRead.frame, stockRead.frame, parse);
    Loaded(tables.0, tables.1, errors)
  }
}

=== FILE: processor.dfy ===
/** `filter_data` and `availability_display` (processor.py): the window
    filter on both tables, the latest stock snapshot per (branch, product),
    the per-product stock total, the top-100 sales ranking and the left join
    of the two. */
module Processor {
  import opened Wrappers
  import opened Seqs
  import opened Sorting
  import opened Tables
  import opened Text

  // ---------------------------------------------------------------------
  // Station and date-window filter (processor.py:5-14)

  predicate SaleInScope(r: SalesRow, stations: set<string>, range: DateRange) {
    IsIn(r.branch, stations) && InWindow(r.dateTime, range)
  }

  predicate StockInScope(r: StockRow, stations: set<string>, range: DateRange) {
    IsIn(r.branch, stations) && InWindow(r.dateStamp, range)
  }

  /** Sales lines at a selected station whose `Date_Time` falls in the window. */
  function FilterSales(sales: seq<SalesRow>, stations: set<string>, range: DateRange): (r: seq<SalesRow>)
    ensures forall x :: x in r <==>
      x in sales && x.branch.Some? && x.branch.value in stations
      && x.dateTime.Some? && range.start <= DayOf(x.dateTime.value) <= range.end
    ensures forall x :: multiset(r)[x] == if SaleInScope(x, stations, range) then multiset(sales)[x] else 0
    ensures IsSubsequence(r, sales)
  {
    var keep := (x: SalesRow) => SaleInScope(x, stations, range);
    FilterMembership(sales, keep);
    FilterCounts(sales, keep);
    FilterIsSubsequence(sales, keep);
    Filter(sales, keep)
  }

  /** Stock snapshots at a selected station whose `Date_Stamp` falls in the window. */
  function FilterStock(stock: seq<StockRow>, stations: set<string>, range: DateRange): (r: seq<StockRow>)
    ensures forall x :: x in r <==>
      x in stock && x.branch.Some? && x.branch.value in stations
      && x.dateStamp.Some? && range.start <= DayOf(x.dateStamp.value) <= range.end
    ensures forall x :: multiset(r)[x] == if StockInScope(x, stations, range) then multiset(stock)[x] else 0
    ensures IsSubsequence(r, stock)
  {
    var keep := (x: StockRow) => StockInScope(x, stations, range);
    FilterMembership(stock, keep);
    FilterCounts(stock, keep);
    FilterIsSubsequence(stock, keep);
    Filter(stock, keep)
  }

  // ---------------------------------------------------------------------
  // Latest snapshot per (branch, product) (processor.py:17-22)

  /** The group key of `groupby(['Branch_Name', 'Product_Code'])`. */
  function PairOf(r: StockRow): (Option<string>, string) {
    (r.branch, r.code)
  }

  /** The sort key of `sort_values('Date_Stamp')` for a row that has a stamp. */
  function StampKey(r: StockRow): real {
    r.dateStamp.GetOr(0) as real
  }

  predicate AllStamped(rows: seq<StockRow>) {
    forall x :: x in rows ==> x.dateStamp.Some?
  }

  predicate PairOccurs(p: (Option<string>, string), rows: seq<StockRow>) {
    exists i :: 0 <= i < |rows| && PairOf(rows[i]) == p
  }

  /** `groupby(...).tail(1)`: keeps a row exactly when no later row has its
      pair, preserving the order of the rows kept. */
  function TailPerPair(rows: seq<StockRow>): seq<StockRow>
    decreases |rows|
  {
    if |rows| == 0 then []
    else if PairOccurs(PairOf(rows[0]), rows[1..]) then TailPerPair(rows[1..])
    else [rows[0]] + TailPerPair(rows[1..])
  }

  /** The latest snapshot of every (branch, product) pair of the filtered
      stock: the rows are sorted stably by stamp and the last row of each pair
      is kept, so the result is in ascending stamp order. */
  function LatestPerStation(filtered: seq<StockRow>): (r: seq<StockRow>)
    requires AllStamped(filtered)
    ensures forall x :: x in r ==> x in filtered
    ensures DistinctBy(r, PairOf)
    ensures forall y :: y in filtered ==> PairOccurs(PairOf(y), r)
    ensures forall x, y :: x in r && y in filtered && PairOf(x) == PairOf(y) ==>
      y.dateStamp.value <= x.dateStamp.value
    ensures forall i, j :: 0 <= i < j < |r| ==> r[i].dateStamp.value <= r[j].dateStamp.value
  {
    var sorted := SortBy(filtered, StampKey);
    SortedSameRows(filtered);
    TailMembers(sorted);
    TailCovers(sorted);
    TailDistinct(sorted);
    TailMaximal(sorted);
    TailSorted(sorted);
    TailPerPair(sorted)
  }

  /** Sorting by stamp neither adds nor loses a row. */
  lemma SortedSameRows(filtered: seq<StockRow>)
    ensures forall y :: y in SortBy(filtered, StampKey) <==> y in filtered
  {
    var sorted := SortBy(filtered, StampKey);
    assert forall y :: y in filtered <==> y in multiset(sorted);
  }

  lemma {:induction false} TailMembers(rows: seq<StockRow>)
    ensures forall x :: x in TailPerPair(rows) ==> x in rows
    decreases |rows|
  {
    if |rows| > 0 {
      TailMembers(rows[1..]);
    }
  }

  /** Every pair of the input keeps a row. */
  lemma {:induction false} TailCovers(rows: seq<StockRow>)
    ensures forall y :: y in rows ==> PairOccurs(PairOf(y), TailPerPair(rows))
    decreases |rows|
  {
    if |rows| > 0 {
      var head, rest := rows[0], rows[1..];
      TailCovers(rest);
      var t := TailPerPair(rest);
      assert rows == [head] + rest;
      forall y | y in rows
        ensures PairOccurs(PairOf(y), TailPerPair(rows))
      {
        if y != head {
          assert y in rest;
          var i :| 0 <= i < |t| && PairOf(t[i]) == PairOf(y);
          if !PairOccurs(PairOf(head), rest) {
            assert TailPerPair(rows)[i + 1] == t[i];
          }
        } else if PairOccurs(PairOf(head), rest) {
          var j :| 0 <= j < |rest| && PairOf(rest[j]) == PairOf(head);
          assert rest[j] in rest;
        } else {
          assert TailPerPair(rows)[0] == head;
        }
      }
    }
  }

  /** No pair keeps two rows. */
  lemma {:induction false} TailDistinct(rows: seq<StockRow>)
    ensures DistinctBy(TailPerPair(rows), PairOf)
    decreases |rows|
  {
    if |rows| > 0 {
      var head, rest := rows[0], rows[1..];
      TailDistinct(rest);
      TailMembers(rest);
      var t := TailPerPair(rest);
      if !PairOccurs(PairOf(head), rest) {
        var r := TailPerPair(rows);
        assert r == [head] + t;
        forall i, j | 0 <= i < j < |r|
          ensures PairOf(r[i]) != PairOf(r[j])
        {
          if i == 0 {
            assert r[j] == t[j - 1];
            assert t[j - 1] in rest;
            var k :| 0 <= k < |rest| && rest[k] == t[j - 1];
          } else {
            assert r[i] == t[i - 1] && r[j] == t[j - 1];
          }
        }
      }
    }
  }

  /** On stamp-sorted input the kept row of a pair carries the largest stamp
      of that pair. */
  lemma {:induction false} TailMaximal(rows: seq<StockRow>)
    requires SortedBy(rows, StampKey)
    ensures forall x, y :: x in TailPerPair(rows) && y in rows && PairOf(x) == PairOf(y) ==>
      StampKey(y) <= StampKey(x)
    decreases |rows|
  {
    if |rows| > 0 {
      var head, rest := rows[0], rows[1..];
      TailMaximal(rest);
      TailMembers(rest);
      var t := TailPerPair(rest);
      assert rows == [head] + rest;
      forall x, y | x in TailPerPair(rows) && y in rows && PairOf(x) == PairOf(y)
        ensures StampKey(y) <= StampKey(x)
      {
        if x in t {
          if y == head {
            var k :| 0 <= k < |rest| && rest[k] == x;
            assert rows[k + 1] == x;
          }
        }
      }
    }
  }

  /** Keeping rows never reorders them, so sorted input gives sorted output. */
  lemma {:induction false} TailSorted(rows: seq<StockRow>)
    requires SortedBy(rows, StampKey)
    ensures SortedBy(TailPerPair(rows), StampKey)
    decreases |rows|
  {
    if |rows| > 0 {
      var head, rest := rows[0], rows[1..];
      TailSorted(rest);
      TailMembers(rest);
      var t := TailPerPair(rest);
      if !PairOccurs(PairOf(head), rest) {
        var r := TailPerPair(rows);
        assert r == [head] + t;
        forall i, j | 0 <= i < j < |r|
          ensures StampKey(r[i]) <= StampKey(r[j])
        {
          if i == 0 {
            assert r[j] == t[j - 1];
            assert t[j - 1] in rest;
            var k :| 0 <= k < |rest| && rest[k] == t[j - 1];
            assert rows[k + 1] == rest[k];
          } else {
            assert r[i] == t[i - 1] && r[j] == t[j - 1];
          }
        }
      }
    }
  }

  /** The kept row of a pair is the last row, in input order, among the rows
      selected by any `keep` that only selects rows of that pair. */
  lemma {:induction false} TailLast(rows: seq<StockRow>, x: StockRow, keep: StockRow -> bool)
    requires x in TailPerPair(rows)
    requires keep(x)
    requires forall y :: keep(y) ==> PairOf(y) == PairOf(x)
    ensures |Filter(rows, keep)| > 0 && Filter(rows, keep)[|Filter(rows, keep)| - 1] == x
    decreases |rows|
  {
    var head, rest := rows[0], rows[1..];
    TailMembers(rest);
    if x in TailPerPair(rest) {
      TailLast(rest, x, keep);
    } else {
      assert x == head && !PairOccurs(PairOf(head), rest);
      NoneSelected(rest, keep);
    }
  }

  /** The tie-break among snapshots of one pair that share the latest stamp:
      the one that comes last in the input wins. Sorting is stable, so the
      rows of one pair with one stamp keep their input order, and `tail(1)`
      takes the last of them. */
  lemma LatestTieBreak(filtered: seq<StockRow>, x: StockRow)
    requires AllStamped(filtered)
    requires x in LatestPerStation(filtered)
    ensures var same := Filter(filtered, (y: StockRow) => PairOf(y) == PairOf(x) && y.dateStamp == x.dateStamp);
      |same| > 0 && same[|same| - 1] == x
  {
    var keep := (y: StockRow) => PairOf(y) == PairOf(x) && y.dateStamp == x.dateStamp;
    SortStable(filtered, StampKey, keep, StampKey(x));
    TailLast(SortBy(filtered, StampKey), x, keep);
  }

  // ---------------------------------------------------------------------
  // Stock total per product over the latest snapshots (processor.py:25-30)

  /** `Stock_on_Hand` as `sum` sees it: NaN is skipped, i.e. counts as 0. */
  function StockOf(r: StockRow): real {
    r.stockOnHand.GetOr(0.0)
  }

  /** Reference sum of the stock of the rows with product code `code`. */
  function StockTotal(rows: seq<StockRow>, code: string): real
    decreases |rows|
  {
    if |rows| == 0 then 0.0
    else (if rows[0].code == code then StockOf(rows[0]) else 0.0) + StockTotal(rows[1..], code)
  }

  predicate CodeOccurs(code: string, rows: seq<StockRow>) {
    exists i :: 0 <= i < |rows| && rows[i].code == code
  }

  /** One pass over the rows, adding each row's stock to its product's entry. */
  function AccumulateStock(rows: seq<StockRow>, acc: map<string, real>): (m: map<string, real>)
    ensures forall c :: c in m <==> c in acc || CodeOccurs(c, rows)
    ensures forall c :: c in m ==> m[c] == (if c in acc then acc[c] else 0.0) + StockTotal(rows, c)
    decreases |rows|
  {
    if |rows| == 0 then acc
    else
      var c := rows[0].code;
      var acc' := acc[c := (if c in acc then acc[c] else 0.0) + StockOf(rows[0])];
      var m := AccumulateStock(rows[1..], acc');
      assert forall k :: CodeOccurs(k, rows) <==> k == c || CodeOccurs(k, rows[1..]) by {
        forall k | CodeOccurs(k, rows[1..])
          ensures CodeOccurs(k, rows)
        {
          var i :| 0 <= i < |rows[1..]| && rows[1..][i].code == k;
          assert rows[i + 1].code == k;
        }
      }
      m
  }

  /** `groupby('Product_Code')['Stock_on_Hand'].sum()`: one entry per product
      code present in the latest snapshots, holding the sum of their stock. */
  function StockSummary(latest: seq<StockRow>): (m: map<string, real>)
    ensures forall c :: c in m <==> CodeOccurs(c, latest)
    ensures forall c :: c in m ==> m[c] == StockTotal(latest, c)
  {
    AccumulateStock(latest, map[])
  }

  /** A product whose every latest snapshot has NaN stock still gets an entry,
      and that entry is 0, not missing. */
  lemma AllMissingSumsToZero(latest: seq<StockRow>, code: string)
    requires CodeOccurs(code, latest)
    requires forall i :: 0 <= i < |latest| && latest[i].code == code ==> latest[i].stockOnHand.None?
    ensures code in StockSummary(latest) && StockSummary(latest)[code] == 0.0
  {
    NoStockTotalsZero(latest, code);
  }

  lemma {:induction false} NoStockTotalsZero(rows: seq<StockRow>, code: string)
    requires forall i :: 0 <= i < |rows| && rows[i].code == code ==> rows[i].stockOnHand.None?
    ensures StockTotal(rows, code) == 0.0
    decreases |rows|
  {
    if |rows| > 0 {
      NoStockTotalsZero(rows[1..], code);
    }
  }

  // ---------------------------------------------------------------------
  // Sales per (code, description) and the top 100 (processor.py:33-40)

  /** The group key of `groupby(['Product_Code', 'Product_Description'])`. */
  datatype SalesKey = SalesKey(code: string, description: string)

  /** One aggregated group: its key and its summed `Qty_Sold`. */
  datatype Group = Group(key: SalesKey, qty: real)

  function GroupKey(g: Group): SalesKey {
    g.key
  }

  /** A row's group key; `groupby` drops rows whose description is NaN. */
  function KeyOf(r: SalesRow): Option<SalesKey> {
    if r.description.Some? then Some(SalesKey(r.code, r.description.value)) else None
  }

  /** `Qty_Sold` as `sum` sees it: NaN counts as 0. */
  function QtyOf(r: SalesRow): real {
    r.qtySold.GetOr(0.0)
  }

  /** Reference sum of the quantity sold over the rows with key `k`. */
  function SalesTotal(rows: seq<SalesRow>, k: SalesKey): real
    decreases |rows|
  {
    if |rows| == 0 then 0.0
    else (if KeyOf(rows[0]) == Some(k) then QtyOf(rows[0]) else 0.0) + SalesTotal(rows[1..], k)
  }

  predicate HasSale(rows: seq<SalesRow>, k: SalesKey) {
    exists i :: 0 <= i < |rows| && KeyOf(rows[i]) == Some(k)
  }

  predicate HasGroup(groups: seq<Group>, k: SalesKey) {
    exists i :: 0 <= i < |groups| && groups[i].key == k
  }

  /** The quantity recorded for `k`, 0 when there is no group for it. */
  function QtyIn(groups: seq<Group>, k: SalesKey): real
    decreases |groups|
  {
    if |groups| == 0 then 0.0
    else if groups[0].key == k then groups[0].qty
    else QtyIn(groups[1..], k)
  }

  /** Adds `q` to the group of `k`, opening a group at the end when there is none. */
  function AddTo(groups: seq<Group>, k: SalesKey, q: real): (r: seq<Group>)
    decreases |groups|
  {
    if |groups| == 0 then [Group(k, q)]
    else if groups[0].key == k then [Group(k, groups[0].qty + q)] + groups[1..]
    else [groups[0]] + AddTo(groups[1..], k, q)
  }

  lemma AddToFacts(groups: seq<Group>, k: SalesKey, q: real)
    requires DistinctBy(groups, GroupKey)
    ensures DistinctBy(AddTo(groups, k, q), GroupKey)
    ensures forall k' :: HasGroup(AddTo(groups, k, q), k') <==> HasGroup(groups, k') || k' == k
    ensures forall k' :: QtyIn(AddTo(groups, k, q), k') == QtyIn(groups, k') + (if k' == k then q else 0.0)
  {
    AddToKeys(groups, k, q);
    AddToQty(groups, k, q);
    AddToDistinct(groups, k, q);
  }

  lemma {:induction false} AddToKeys(groups: seq<Group>, k: SalesKey, q: real)
    ensures forall k' :: HasGroup(AddTo(groups, k, q), k') <==> HasGroup(groups, k') || k' == k
    decreases |groups|
  {
    var r := AddTo(groups, k, q);
    if |groups| == 0 {
      assert r[0].key == k;
    } else if groups[0].key == k {
      assert r[1..] == groups[1..];
      assert r[0].key == k;
      forall k' ensures HasGroup(r, k') <==> HasGroup(groups, k') {
        if HasGroup(groups, k') {
          var i :| 0 <= i < |groups| && groups[i].key == k';
          assert r[i].key == k';
        }
        if HasGroup(r, k') {
          var i :| 0 <= i < |r| && r[i].key == k';
          assert groups[i].key == k';
        }
      }
    } else {
      var rest := groups[1..];
      AddToKeys(rest, k, q);
      var t := AddTo(rest, k, q);
      assert r == [groups[0]] + t;
      assert r[0] == groups[0];
      forall k' ensures HasGroup(r, k') <==> HasGroup(groups, k') || k' == k {
        if k' == groups[0].key {
          assert HasGroup(r, k') && HasGroup(groups, k');
        }
        if HasGroup(t, k') {
          var i :| 0 <= i < |t| && t[i].key == k';
          assert r[i + 1].key == k';
        }
        if HasGroup(r, k') && k' != groups[0].key {
          var i :| 0 <= i < |r| && r[i].key == k';
          assert t[i - 1].key == k';
        }
        if HasGroup(rest, k') {
          var i :| 0 <= i < |rest| && rest[i].key == k';
          assert groups[i + 1].key == k';
        }
        if HasGroup(groups, k') && k' != groups[0].key {
          var i :| 0 <= i < |groups| && groups[i].key == k';
          assert rest[i - 1].key == k';
        }
      }
    }
  }

  lemma {:induction false} AddToQty(groups: seq<Group>, k: SalesKey, q: real)
    ensures forall k' :: QtyIn(AddTo(groups, k, q), k') == QtyIn(groups, k') + (if k' == k then q else 0.0)
    decreases |groups|
  {
    if |groups| > 0 && groups[0].key != k {
      AddToQty(groups[1..], k, q);
      assert AddTo(groups, k, q)[1..] == AddTo(groups[1..], k, q);
    } else if |groups| > 0 {
      assert AddTo(groups, k, q)[1..] == groups[1..];
    }
  }

  lemma {:induction false} AddToDistinct(groups: seq<Group>, k: SalesKey, q: real)
    requires DistinctBy(groups, GroupKey)
    ensures DistinctBy(AddTo(groups, k, q), GroupKey)
    decreases |groups|
  {
    var r := AddTo(groups, k, q);
    if |groups| > 0 && groups[0].key == k {
      forall i, j | 0 <= i < j < |r|
        ensures r[i].key != r[j].key
      {
        assert r[j] == groups[j];
        if i > 0 {
          assert r[i] == groups[i];
        }
      }
    } else if |groups| > 0 {
      var g, rest := groups[0], groups[1..];
      AddToDistinct(rest, k, q);
      AddToKeys(rest, k, q);
      var t := AddTo(rest, k, q);
      assert r == [g] + t;
      forall i, j | 0 <= i < j < |r|
        ensures r[i].key != r[j].key
      {
        if i == 0 {
          assert r[j] == t[j - 1];
          assert HasGroup(t, t[j - 1].key);
        } else {
          assert r[i] == t[i - 1] && r[j] == t[j - 1];
        }
      }
    }
  }

  /** Folds one sales row into the groups; a row without a key changes nothing. */
  function Step(acc: seq<Group>, row: SalesRow): (r: seq<Group>)
    requires DistinctBy(acc, GroupKey)
    ensures DistinctBy(r, GroupKey)
    ensures forall k :: HasGroup(r, k) <==> HasGroup(acc, k) || KeyOf(row) == Some(k)
    ensures forall k :: QtyIn(r, k) == QtyIn(acc, k) + (if KeyOf(row) == Some(k) then QtyOf(row) else 0.0)
  {
    match KeyOf(row)
    case None => acc
    case Some(k) =>
      AddToFacts(acc, k, QtyOf(row));
      AddTo(acc, k, QtyOf(row))
  }

  /** One pass over the sales rows, folding each keyed row into its group;
      groups appear in the order their key first occurs. */
  function GroupFrom(rows: seq<SalesRow>, acc: seq<Group>): (r: seq<Group>)
    requires DistinctBy(acc, GroupKey)
    ensures DistinctBy(r, GroupKey)
    ensures forall k :: HasGroup(r, k) <==> HasGroup(acc, k) || HasSale(rows, k)
    ensures forall k :: QtyIn(r, k) == QtyIn(acc, k) + SalesTotal(rows, k)
    decreases |rows|
  {
    if |rows| == 0 then acc
    else
      var acc' := Step(acc, rows[0]);
      var r := GroupFrom(rows[1..], acc');
      assert forall k :: HasSale(rows, k) <==> KeyOf(rows[0]) == Some(k) || HasSale(rows[1..], k) by {
        forall k | HasSale(rows[1..], k)
          ensures HasSale(rows, k)
        {
          var i :| 0 <= i < |rows[1..]| && KeyOf(rows[1..][i]) == Some(k);
          assert KeyOf(rows[i + 1]) == Some(k);
        }
      }
      r
  }

  /** In a list with distinct keys, a group's quantity is the one recorded for its key. */
  lemma {:induction false} QtyInDistinct(groups: seq<Group>, i: int)
    requires DistinctBy(groups, GroupKey)
    requires 0 <= i < |groups|
    ensures QtyIn(groups, groups[i].key) == groups[i].qty
    decreases i
  {
    if i > 0 {
      assert groups[0].key != groups[i].key;
      QtyInDistinct(groups[1..], i - 1);
    }
  }

  /** `groupby(['Product_Code', 'Product_Description']).agg({'Qty_Sold': 'sum'})`:
      exactly one group per key that some row with a description carries,
      holding the sum of that key's quantities. */
  function GroupSales(filtered: seq<SalesRow>): (groups: seq<Group>)
    ensures DistinctBy(groups, GroupKey)
    ensures forall k :: HasGroup(groups, k) <==> HasSale(filtered, k)
    ensures forall i :: 0 <= i < |groups| ==> groups[i].qty == SalesTotal(filtered, groups[i].key)
  {
    var groups := GroupFrom(filtered, []);
    forall i | 0 <= i < |groups|
      ensures groups[i].qty == SalesTotal(filtered, groups[i].key)
    {
      QtyInDistinct(groups, i);
    }
    groups
  }

  /** The number of rows `head(100)` keeps. */
  const TopN: nat := 100

  /** The sort key of `sort_values(by='Qty_Sold', ascending=False)`. */
  function Descending(g: Group): real {
    -g.qty
  }

  /** The 100 best-selling (code, description) groups, best first. Among equal
      quantities groups keep the order in which their key first occurs. */
  function TopProducts(filtered: seq<SalesRow>): (top: seq<Group>)
    ensures |top| == if |GroupSales(filtered)| < TopN then |GroupSales(filtered)| else TopN
    ensures forall i, j :: 0 <= i < j < |top| ==> top[i].qty >= top[j].qty
    ensures DistinctBy(top, GroupKey)
    ensures forall i :: 0 <= i < |top| ==>
      HasSale(filtered, top[i].key) && top[i].qty == SalesTotal(filtered, top[i].key)
    ensures forall k :: HasSale(filtered, k) && !HasGroup(top, k) ==>
      forall i :: 0 <= i < |top| ==> SalesTotal(filtered, k) <= top[i].qty
  {
    var groups := GroupSales(filtered);
    var ranked := SortBy(groups, Descending);
    SortDistinct(groups, Descending, GroupKey);
    var n := if |ranked| < TopN then |ranked| else TopN;
    TopMembers(filtered, groups, ranked, n);
    TopDominates(filtered, groups, ranked, n);
    TopOrdered(ranked, n);
    assert DistinctBy(ranked[..n], GroupKey);
    ranked[..n]
  }

  lemma TopMembers(filtered: seq<SalesRow>, groups: seq<Group>, ranked: seq<Group>, n: nat)
    requires groups == GroupSales(filtered)
    requires multiset(ranked) == multiset(groups)
    requires n <= |ranked|
    ensures forall i :: 0 <= i < n ==>
      HasSale(filtered, ranked[i].key) && ranked[i].qty == SalesTotal(filtered, ranked[i].key)
  {
    forall i | 0 <= i < n
      ensures HasSale(filtered, ranked[i].key) && ranked[i].qty == SalesTotal(filtered, ranked[i].key)
    {
      assert ranked[i] in multiset(groups);
      var j :| 0 <= j < |groups| && groups[j] == ranked[i];
      assert HasGroup(groups, ranked[i].key);
    }
  }

  lemma TopDominates(filtered: seq<SalesRow>, groups: seq<Group>, ranked: seq<Group>, n: nat)
    requires groups == GroupSales(filtered)
    requires multiset(ranked) == multiset(groups)
    requires SortedBy(ranked, Descending)
    requires n <= |ranked|
    ensures forall k :: HasSale(filtered, k) && !HasGroup(ranked[..n], k) ==>
      forall i :: 0 <= i < n ==> SalesTotal(filtered, k) <= ranked[i].qty
  {
    forall k, i | HasSale(filtered, k) && !HasGroup(ranked[..n], k) && 0 <= i < n
      ensures SalesTotal(filtered, k) <= ranked[i].qty
    {
      assert HasGroup(groups, k);
      var j :| 0 <= j < |groups| && groups[j].key == k;
      assert groups[j] in multiset(ranked);
      var m :| 0 <= m < |ranked| && ranked[m] == groups[j];
      assert Descending(ranked[i]) <= Descending(ranked[m]);
    }
  }

  lemma TopOrdered(ranked: seq<Group>, n: nat)
    requires SortedBy(ranked, Descending)
    requires n <= |ranked|
    ensures forall i, j :: 0 <= i < j < n ==> ranked[i].qty >= ranked[j].qty
  {
    forall i, j | 0 <= i < j < n
      ensures ranked[i].qty >= ranked[j].qty
    {
      assert Descending(ranked[i]) <= Descending(ranked[j]);
    }
  }

  // ---------------------------------------------------------------------
  // Left join of the stock totals onto the top list (processor.py:42-44)

  /** A row of the final top table. */
  datatype Ranked = Ranked(code: string, description: string, qtySold: real, stockOnHand: Option<real>)

  /** `merge(stock_summary_global, on='Product_Code', how='left')`: the summary
      has one entry per code, so every top row yields exactly one joined row,
      with NaN stock when its code has no entry. */
  function MergeStock(top: seq<Group>, summary: map<string, real>): (r: seq<Ranked>)
    ensures |r| == |top|
    ensures forall i :: 0 <= i < |r| ==>
      r[i].code == top[i].key.code && r[i].description == top[i].key.description && r[i].qtySold == top[i].qty
    ensures forall i :: 0 <= i < |r| ==> (r[i].stockOnHand.Some? <==> top[i].key.code in summary)
    ensures forall i :: 0 <= i < |r| && top[i].key.code in summary ==> r[i].stockOnHand == Some(summary[top[i].key.code])
    decreases |top|
  {
    if |top| == 0 then []
    else
      var code := top[0].key.code;
      var stock := if code in summary then Some(summary[code]) else None;
      [Ranked(code, top[0].key.description, top[0].qty, stock)] + MergeStock(top[1..], summary)
  }

  // ---------------------------------------------------------------------
  // The whole of filter_data (processor.py:3-46)

  /** The two tables `filter_data` returns: the joined top list and the
      latest snapshot per station. */
  datatype Processed = Processed(top: seq<Ranked>, latest: seq<StockRow>)

  function FilterData(sales: seq<SalesRow>, stock: seq<StockRow>, stations: set<string>, range: DateRange): (out: Processed)
    ensures out.latest == LatestPerStation(FilterStock(stock, stations, range))
    ensures |out.top| == if |GroupSales(FilterSales(sales, stations, range))| < TopN
      then |GroupSales(FilterSales(sales, stations, range))| else TopN
    ensures forall i, j :: 0 <= i < j < |out.top| ==> out.top[i].qtySold >= out.top[j].qtySold
    ensures forall i, j :: 0 <= i < j < |out.top| ==>
      SalesKey(out.top[i].code, out.top[i].description) != SalesKey(out.top[j].code, out.top[j].description)
    ensures forall i :: 0 <= i < |out.top| ==>
      var k := SalesKey(out.top[i].code, out.top[i].description);
      HasSale(FilterSales(sales, stations, range), k)
      && out.top[i].qtySold == SalesTotal(FilterSales(sales, stations, range), k)
    ensures forall k ::
      (HasSale(FilterSales(sales, stations, range), k)
       && forall i :: 0 <= i < |out.top| ==> SalesKey(out.top[i].code, out.top[i].description) != k) ==>
      forall i :: 0 <= i < |out.top| ==> SalesTotal(FilterSales(sales, stations, range), k) <= out.top[i].qtySold
    ensures forall i :: 0 <= i < |out.top| ==>
      (out.top[i].stockOnHand.Some? <==> CodeOccurs(out.top[i].code, out.latest))
    ensures forall i :: 0 <= i < |out.top| && out.top[i].stockOnHand.Some? ==>
      out.top[i].stockOnHand.value == StockTotal(out.latest, out.top[i].code)
  {
    var filteredSales := FilterSales(sales, stations, range);
    var filteredStock := FilterStock(stock, stations, range);
    var latest := LatestPerStation(filteredStock);
    var top := TopProducts(filteredSales);
    var joined := MergeStock(top, StockSummary(latest));
    JoinFacts(top, latest);
    JoinedRanking(filteredSales, top, joined);
    JoinedDominates(filteredSales, top, joined);
    Processed(joined, latest)
  }

  /** The top-list ordering, distinctness and totals carried over to the
      joined rows, which repeat the top list's keys and totals in order. */
  lemma JoinedRanking(filtered: seq<SalesRow>, top: seq<Group>, joined: seq<Ranked>)
    requires top == TopProducts(filtered)
    requires |joined| == |top|
    requires forall i :: 0 <= i < |joined| ==>
      SalesKey(joined[i].code, joined[i].description) == top[i].key && joined[i].qtySold == top[i].qty
    ensures |joined| == if |GroupSales(filtered)| < TopN then |GroupSales(filtered)| else TopN
    ensures forall i, j :: 0 <= i < j < |joined| ==> joined[i].qtySold >= joined[j].qtySold
    ensures forall i, j :: 0 <= i < j < |joined| ==>
      SalesKey(joined[i].code, joined[i].description) != SalesKey(joined[j].code, joined[j].description)
    ensures forall i :: 0 <= i < |joined| ==>
      HasSale(filtered, SalesKey(joined[i].code, joined[i].description))
      && joined[i].qtySold == SalesTotal(filtered, SalesKey(joined[i].code, joined[i].description))
  {
    forall i, j | 0 <= i < j < |joined|
      ensures SalesKey(joined[i].code, joined[i].description) != SalesKey(joined[j].code, joined[j].description)
    {
      assert GroupKey(top[i]) != GroupKey(top[j]);
    }
  }

  /** No product left out of the joined rows outsold one of them. */
  lemma JoinedDominates(filtered: seq<SalesRow>, top: seq<Group>, joined: seq<Ranked>)
    requires top == TopProducts(filtered)
    requires |joined| == |top|
    requires forall i :: 0 <= i < |joined| ==>
      SalesKey(joined[i].code, joined[i].description) == top[i].key && joined[i].qtySold == top[i].qty
    ensures forall k ::
      (HasSale(filtered, k) && forall i :: 0 <= i < |joined| ==> SalesKey(joined[i].code, joined[i].description) != k) ==>
      forall i :: 0 <= i < |joined| ==> SalesTotal(filtered, k) <= joined[i].qtySold
  {
    forall k | HasSale(filtered, k) && forall i :: 0 <= i < |joined| ==> SalesKey(joined[i].code, joined[i].description) != k
      ensures forall i :: 0 <= i < |joined| ==> SalesTotal(filtered, k) <= joined[i].qtySold
    {
      assert !HasGroup(top, k);
    }
  }

  /** The joined rows carry their group's key and quantity, and stock exactly
      for the codes that have a latest snapshot. */
  lemma JoinFacts(top: seq<Group>, latest: seq<StockRow>)
    ensures var joined := MergeStock(top, StockSummary(latest));
      && |joined| == |top|
      && (forall i :: 0 <= i < |joined| ==>
            SalesKey(joined[i].code, joined[i].description) == top[i].key && joined[i].qtySold == top[i].qty)
      && (forall i :: 0 <= i < |joined| ==>
            (joined[i].stockOnHand.Some? <==> CodeOccurs(joined[i].code, latest)))
      && (forall i :: 0 <= i < |joined| && joined[i].stockOnHand.Some? ==>
            joined[i].stockOnHand.value == StockTotal(latest, joined[i].code))
  {
  }

  // ---------------------------------------------------------------------
  // availability_display (processor.py:50-54)

  const OutOfStockLabel: string := "\U{274C} Out of Stock"

  const AvailableSuffix: string := " pcs available"

  /** `pd.isna(qty) or qty <= 0`; also `fillna(0) <= 0` in the dashboard. */
  predicate OutOfStock(q: Option<real>) {
    q.None? || q.value <= 0.0
  }

  /** Reads the count back from a label of the form "<digits> pcs available". */
  function ReadCount(shown: string): Option<nat> {
    if |shown| > |AvailableSuffix| && shown[|shown| - |AvailableSuffix|..] == AvailableSuffix then
      var digits := shown[..|shown| - |AvailableSuffix|];
      if |digits| > 1 && digits[0] == '0' then None else ParseNat(digits)
    else None
  }

  /** A label `ReadCount` accepts is exactly `str(n) + " pcs available"`:
      no sign, no leading zero, nothing else. */
  lemma ReadCountExact(shown: string)
    requires ReadCount(shown).Some?
    ensures shown == NatToString(ReadCount(shown).value) + AvailableSuffix
  {
    var digits := shown[..|shown| - |AvailableSuffix|];
    ParseNatCanonical(digits);
    assert shown == digits + shown[|shown| - |AvailableSuffix|..];
  }

  /** Total over every input: the out-of-stock label exactly for a missing or
      non-positive quantity, otherwise a label carrying the quantity truncated
      to an integer (`int(qty)`, which for a positive quantity rounds down). */
  function AvailabilityDisplay(q: Option<real>): (shown: string)
    ensures shown == OutOfStockLabel <==> OutOfStock(q)
    ensures !OutOfStock(q) ==>
      ReadCount(shown).Some?
      && ReadCount(shown).value as real <= q.value < ReadCount(shown).value as real + 1.0
  {
    if q.None? || q.value <= 0.0 then OutOfStockLabel
    else
      var n: nat := q.value.Floor;
      var digits := NatToString(n);
      var shown := digits + AvailableSuffix;
      NatToStringRoundTrip(n);
      assert shown[..|shown| - |AvailableSuffix|] == digits;
      assert shown[|shown| - |AvailableSuffix|..] == AvailableSuffix;
      assert shown[0] == digits[0];
      shown
  }

  /** Absent, negative and zero stock all read as out of stock. */
  lemma OutOfStockExamples()
    ensures AvailabilityDisplay(None) == OutOfStockLabel
    ensures AvailabilityDisplay(Some(-5.0)) == OutOfStockLabel
    ensures AvailabilityDisplay(Some(0.0)) == OutOfStockLabel
  {
  }

  /** A fraction is truncated: 3.7 shows as 3 pieces. */
  lemma FractionExample()
    ensures AvailabilityDisplay(Some(3.7)) == "3 pcs available"
  {
    assert (3.7).Floor == 3;
    assert NatToString(3) == "3";
  }

  /** A whole quantity shows in full: 100 shows as 100 pieces. */
  lemma WholeExample()
    ensures AvailabilityDisplay(Some(100.0)) == "100 pcs available"
  {
    assert (100.0).Floor == 100;
    assert NatToString(1) == "1";
    assert NatToString(10) == "10";
    assert NatToString(100) == "100";
  }
}

=== FILE: scenarios.dfy ===
/** Three end-to-end cases on concrete tables. */
module Scenarios {
  import opened Wrappers
  import opened Tables
  import opened Text
  import opened Sorting
  import opened Processor
  import opened Seqs
  import DataLoader
  import App

  /** Scenario A: two sales of product "100" at branch "A" (5 and 3 pieces)
      inside the window, one stock snapshot of 0 pieces. */
  const SalesA: seq<SalesRow> := [
    SalesRow("100", Some("Widget"), Some("A"), None, None, Some(NanosPerDay), Some(5.0)),
    SalesRow("100", Some("Widget"), Some("A"), None, None, Some(NanosPerDay + 1), Some(3.0))]

  const StockA: seq<StockRow> := [
    StockRow("100", Some("Widget"), Some("A"), None, None, Some(NanosPerDay), Some(0.0))]

  const WindowA: DateRange := DateRange(1, 1)

  lemma ScenarioASales()
    ensures TopProducts(FilterSales(SalesA, {"A"}, WindowA)) == [Group(SalesKey("100", "Widget"), 8.0)]
  {
    assert DayOf(NanosPerDay) == 1;
    assert DayOf(NanosPerDay + 1) == 1;
    var filtered := FilterSales(SalesA, {"A"}, WindowA);
    assert filtered == SalesA;
    var k := SalesKey("100", "Widget");
    var g0 := Step([], SalesA[0]);
    assert g0 == [Group(k, 5.0)];
    var g1 := Step(g0, SalesA[1]);
    assert g1 == [Group(k, 8.0)];
    assert SalesA[1..][1..] == [];
    assert GroupFrom(SalesA[1..][1..], g1) == g1;
    assert GroupFrom(SalesA[1..], g0) == g1;
    assert GroupFrom(SalesA, []) == g1;
    assert SortBy(g1, Descending) == g1;
  }

  lemma ScenarioAStock()
    ensures StockSummary(LatestPerStation(FilterStock(StockA, {"A"}, WindowA))) == map["100" := 0.0]
  {
    assert DayOf(NanosPerDay) == 1;
    var filtered := FilterStock(StockA, {"A"}, WindowA);
    assert filtered == StockA;
    assert SortBy(StockA, StampKey) == StockA;
    assert TailPerPair(StockA) == StockA;
  }

  /** Scenario A end to end: 8 pieces sold and out of stock. */
  lemma ScenarioA()
    ensures FilterData(SalesA, StockA, {"A"}, WindowA).top == [Ranked("100", "Widget", 8.0, Some(0.0))]
    ensures AvailabilityDisplay(Some(0.0)) == OutOfStockLabel
  {
    ScenarioASales();
    ScenarioAStock();
  }

  /** Scenario B: the sales file stored the code as the float 100.0, the
      stock file as the text "100"; after loading both read "100", so the
      sales line finds its stock on the join. */
  lemma ScenarioB()
    ensures DataLoader.NormaliseCode("100.0") == DataLoader.NormaliseCode("100")
    ensures var sales := [SalesRow(DataLoader.NormaliseCode("100.0"), Some("Widget"), Some("A"), None, None, Some(NanosPerDay), Some(5.0)),
                          SalesRow(DataLoader.NormaliseCode("100.0"), Some("Widget"), Some("A"), None, None, Some(NanosPerDay + 1), Some(3.0))];
      FilterData(sales, StockA, {"A"}, WindowA).top == [Ranked("100", "Widget", 8.0, Some(0.0))]
  {
    DataLoader.NormaliseExamples();
    ScenarioA();
  }

  /** Scenario C: a product with no line in the window shows the no-data
      warning; a listed product charts its lines, titled by the first. */
  lemma ScenarioC()
    ensures App.TrendCandidates(FilterSales(SalesA, {"A"}, WindowA)) == ["100"]
    ensures App.TrendView(FilterSales(SalesA, {"A"}, WindowA), Some("200")) == App.NoData
    ensures App.TrendView(FilterSales(SalesA, {"A"}, WindowA), Some("100")) == App.Chart(Some("Widget"), SalesA)
  {
    assert DayOf(NanosPerDay) == 1;
    assert DayOf(NanosPerDay + 1) == 1;
    var filtered := FilterSales(SalesA, {"A"}, WindowA);
    assert filtered == SalesA;
    var candidates := App.TrendCandidates(SalesA);
    assert "100" in candidates;
    assert forall c :: c in candidates ==> c == "100";
    AscendingListingUnique(candidates, ["100"]);
    var keep := (x: SalesRow) => x.code == "100";
    assert Filter(SalesA[1..], keep) == [SalesA[1]];
    assert Filter(SalesA, keep) == SalesA;
  }
}

=== FILE: seqs.dfy ===
/** Order-preserving row selection, the one operation behind every boolean
    mask `df[mask]` of the dashboard. */
module Seqs {

  /** The elements of `s` that satisfy `keep`, in their original order. */
  function Filter<T>(s: seq<T>, keep: T -> bool): (r: seq<T>)
    ensures |r| <= |s|
    decreases |s|
  {
    if |s| == 0 then []
    else if keep(s[0]) then [s[0]] + Filter(s[1..], keep)
    else Filter(s[1..], keep)
  }

  /** `a` can be obtained from `b` by deleting elements: the order of `b` is kept. */
  predicate IsSubsequence<T(==)>(a: seq<T>, b: seq<T>)
    decreases |b|
  {
    if |a| == 0 then true
    else if |b| == 0 then false
    else if a[0] == b[0] then IsSubsequence(a[1..], b[1..])
    else IsSubsequence(a, b[1..])
  }

  /** An element survives the selection exactly when it was there and passes. */
  lemma {:induction false} FilterMembership<T>(s: seq<T>, keep: T -> bool)
    ensures forall x :: x in Filter(s, keep) <==> x in s && keep(x)
    decreases |s|
  {
    if |s| > 0 {
      FilterMembership(s[1..], keep);
      assert s == [s[0]] + s[1..];
    }
  }

  /** The selection keeps every passing element with its multiplicity. */
  lemma {:induction false} FilterCounts<T>(s: seq<T>, keep: T -> bool)
    ensures forall x :: multiset(Filter(s, keep))[x] == if keep(x) then multiset(s)[x] else 0
    decreases |s|
  {
    if |s| > 0 {
      FilterCounts(s[1..], keep);
      assert s == [s[0]] + s[1..];
    }
  }

  /** The selection keeps the original order. */
  lemma {:induction false} FilterIsSubsequence<T>(s: seq<T>, keep: T -> bool)
    ensures IsSubsequence(Filter(s, keep), s)
    decreases |s|
  {
    if |s| > 0 {
      FilterIsSubsequence(s[1..], keep);
      if keep(s[0]) {
        var r := Filter(s, keep);
        assert r[0] == s[0] && r[1..] == Filter(s[1..], keep);
      } else {
        var r := Filter(s, keep);
        if |r| > 0 {
          SubsequenceExtend(r, s);
        }
      }
    }
  }

  /** Dropping the first element of a subsequence leaves a subsequence. */
  lemma {:induction false} SubsequenceSkipHead<T>(a: seq<T>, b: seq<T>)
    requires |a| > 0 && IsSubsequence(a, b)
    ensures IsSubsequence(a[1..], b)
    decreases |b|, 1
  {
    if a[0] == b[0] {
      SubsequenceExtend(a[1..], b);
    } else {
      SubsequenceSkipHead(a, b[1..]);
      SubsequenceExtend(a[1..], b);
    }
  }

  /** A subsequence of the tail of `b` is a subsequence of `b`. */
  lemma {:induction false} SubsequenceExtend<T>(a: seq<T>, b: seq<T>)
    requires |b| > 0 && IsSubsequence(a, b[1..])
    ensures IsSubsequence(a, b)
    decreases |b|, 0
  {
    if |a| > 0 && a[0] == b[0] {
      SubsequenceSkipHead(a, b[1..]);
    }
  }

  /** Two selections that agree on every element of `s` select the same rows. */
  lemma {:induction false} FilterCongruent<T>(s: seq<T>, p: T -> bool, q: T -> bool)
    requires forall x :: x in s ==> p(x) == q(x)
    ensures Filter(s, p) == Filter(s, q)
    decreases |s|
  {
    if |s| > 0 {
      assert s[0] in s;
      assert forall x :: x in s[1..] ==> x in s;
      FilterCongruent(s[1..], p, q);
    }
  }

  /** Selecting by `p` and then by `q` selects by both at once. */
  lemma {:induction false} FilterTwice<T>(s: seq<T>, p: T -> bool, q: T -> bool)
    ensures Filter(Filter(s, p), q) == Filter(s, x => p(x) && q(x))
    decreases |s|
  {
    if |s| > 0 {
      FilterTwice(s[1..], p, q);
      if p(s[0]) {
        assert Filter(s, p) == [s[0]] + Filter(s[1..], p);
        assert Filter(s, p)[1..] == Filter(s[1..], p);
      }
    }
  }

  /** Two selections applied one after the other commute. */
  lemma FilterCommutes<T>(s: seq<T>, p: T -> bool, q: T -> bool)
    ensures Filter(Filter(s, p), q) == Filter(Filter(s, q), p)
  {
    FilterTwice(s, p, q);
    FilterTwice(s, q, p);
    FilterCongruent(s, x => p(x) && q(x), x => q(x) && p(x));
  }

  /** The first selected element is the earliest element of `s` that passes. */
  lemma {:induction false} FilterFirst<T>(s: seq<T>, keep: T -> bool)
    requires |Filter(s, keep)| > 0
    ensures exists i :: 0 <= i < |s| && keep(s[i]) && Filter(s, keep)[0] == s[i] && forall j :: 0 <= j < i ==> !keep(s[j])
    decreases |s|
  {
    if keep(s[0]) {
      assert Filter(s, keep)[0] == s[0];
    } else {
      FilterFirst(s[1..], keep);
      var i :| 0 <= i < |s[1..]| && keep(s[1..][i]) && Filter(s[1..], keep)[0] == s[1..][i] && forall j :: 0 <= j < i ==> !keep(s[1..][j]);
      assert forall j :: 1 <= j < i + 1 ==> s[j] == s[1..][j - 1];
      assert keep(s[i + 1]) && Filter(s, keep)[0] == s[i + 1];
    }
  }

  /** A subsequence of a subsequence is a subsequence. */
  lemma {:induction false} SubsequenceTransitive<T>(a: seq<T>, b: seq<T>, c: seq<T>)
    requires IsSubsequence(a, b) && IsSubsequence(b, c)
    ensures IsSubsequence(a, c)
    decreases |c|
  {
    if |a| > 0 {
      if b[0] == c[0] {
        if a[0] == b[0] {
          SubsequenceTransitive(a[1..], b[1..], c[1..]);
        } else {
          SubsequenceTransitive(a, b[1..], c[1..]);
          SubsequenceExtend(a, c);
        }
      } else {
        SubsequenceTransitive(a, b, c[1..]);
        SubsequenceExtend(a, c);
      }
    }
  }

  /** Every sequence is a subsequence of itself. */
  lemma {:induction false} SubsequenceReflexive<T>(s: seq<T>)
    ensures IsSubsequence(s, s)
    decreases |s|
  {
    if |s| > 0 {
      SubsequenceReflexive(s[1..]);
    }
  }
}

=== FILE: sorting.dfy ===
/** A stable sort by a numeric key. pandas' `sort_values` is called on
    timestamps (ascending) and on summed quantities (descending, by sorting the
    negated quantity); the model sorts stably so that the order among equal
    keys is a documented choice rather than an accident of quicksort. */
module Sorting {
  import opened Seqs

  /** Keys never decrease along `s`. */
  predicate SortedBy<T>(s: seq<T>, key: T -> real) {
    forall i, j :: 0 <= i < j < |s| ==> key(s[i]) <= key(s[j])
  }

  /** No two elements of `s` share an identity. */
  predicate DistinctBy<T, K(==)>(s: seq<T>, id: T -> K) {
    forall i, j :: 0 <= i < j < |s| ==> id(s[i]) != id(s[j])
  }

  /** Places `x` after the leading run of elements whose key does not exceed
      its own; on a sorted `s` this is after every element with key <= key(x). */
  function Insert<T>(x: T, s: seq<T>, key: T -> real): seq<T>
    decreases |s|
  {
    if |s| == 0 then [x]
    else if key(s[0]) <= key(x) then [s[0]] + Insert(x, s[1..], key)
    else [x] + s
  }

  /** Insertion sort: the last element is inserted into the sorted rest, so
      among equal keys the later element ends up later. */
  function SortBy<T>(s: seq<T>, key: T -> real): (r: seq<T>)
    ensures SortedBy(r, key)
    ensures multiset(r) == multiset(s)
    ensures |r| == |s|
    decreases |s|
  {
    if |s| == 0 then []
    else
      var rest := SortBy(s[..|s| - 1], key);
      InsertFacts(s[|s| - 1], rest, key);
      assert s == s[..|s| - 1] + [s[|s| - 1]];
      Insert(s[|s| - 1], rest, key)
  }

  lemma InsertFacts<T>(x: T, s: seq<T>, key: T -> real)
    requires SortedBy(s, key)
    ensures multiset(Insert(x, s, key)) == multiset(s) + multiset{x}
    ensures |Insert(x, s, key)| == |s| + 1
    ensures SortedBy(Insert(x, s, key), key)
  {
    InsertCounts(x, s, key);
    InsertSorted(x, s, key);
  }

  lemma {:induction false} InsertCounts<T>(x: T, s: seq<T>, key: T -> real)
    ensures multiset(Insert(x, s, key)) == multiset(s) + multiset{x}
    ensures |Insert(x, s, key)| == |s| + 1
    decreases |s|
  {
    if |s| > 0 {
      assert s == [s[0]] + s[1..];
      if key(s[0]) <= key(x) {
        InsertCounts(x, s[1..], key);
      }
    }
  }

  lemma {:induction false} InsertSorted<T>(x: T, s: seq<T>, key: T -> real)
    requires SortedBy(s, key)
    ensures SortedBy(Insert(x, s, key), key)
    decreases |s|
  {
    if |s| > 0 && key(s[0]) <= key(x) {
      var tail := Insert(x, s[1..], key);
      InsertSorted(x, s[1..], key);
      InsertCounts(x, s[1..], key);
      forall k | 0 <= k < |tail|
        ensures key(s[0]) <= key(tail[k])
      {
        assert tail[k] in multiset(tail);
        if tail[k] != x {
          assert tail[k] in s[1..];
        }
      }
      assert Insert(x, s, key) == [s[0]] + tail;
    }
  }

  /** Inserting an element that the selection drops does not change the selection. */
  lemma {:induction false} InsertDropped<T>(x: T, s: seq<T>, key: T -> real, keep: T -> bool)
    requires !keep(x)
    ensures Filter(Insert(x, s, key), keep) == Filter(s, keep)
    decreases |s|
  {
    if |s| > 0 && key(s[0]) <= key(x) {
      InsertDropped(x, s[1..], key, keep);
      assert ([s[0]] + Insert(x, s[1..], key))[1..] == Insert(x, s[1..], key);
    }
  }

  /** Inserting a selected element into a sorted sequence whose selected
      elements all share its key puts it after all of them. */
  lemma {:induction false} InsertKeptLast<T>(x: T, s: seq<T>, key: T -> real, keep: T -> bool)
    requires SortedBy(s, key)
    requires keep(x)
    requires forall y :: keep(y) ==> key(y) == key(x)
    ensures Filter(Insert(x, s, key), keep) == Filter(s, keep) + [x]
    decreases |s|
  {
    if |s| > 0 {
      if key(s[0]) <= key(x) {
        InsertKeptLast(x, s[1..], key, keep);
        assert ([s[0]] + Insert(x, s[1..], key))[1..] == Insert(x, s[1..], key);
      } else {
        NoneSelected(s, keep);
        assert ([x] + s)[1..] == s;
      }
    }
  }

  lemma {:induction false} NoneSelected<T>(s: seq<T>, keep: T -> bool)
    requires forall i :: 0 <= i < |s| ==> !keep(s[i])
    ensures Filter(s, keep) == []
    decreases |s|
  {
    if |s| > 0 {
      NoneSelected(s[1..], keep);
    }
  }

  lemma {:induction false} FilterAppend<T>(a: seq<T>, b: seq<T>, keep: T -> bool)
    ensures Filter(a + b, keep) == Filter(a, keep) + Filter(b, keep)
    decreases |a|
  {
    if |a| > 0 {
      FilterAppend(a[1..], b, keep);
      assert (a + b)[1..] == a[1..] + b;
    } else {
      assert a + b == b;
    }
  }

  /** Stability: restricted to any selection of elements that share one key,
      sorting changes nothing — equal keys keep their input order. */
  lemma {:induction false} SortStable<T>(s: seq<T>, key: T -> real, keep: T -> bool, v: real)
    requires forall y :: keep(y) ==> key(y) == v
    ensures Filter(SortBy(s, key), keep) == Filter(s, keep)
    decreases |s|
  {
    if |s| > 0 {
      var init, x := s[..|s| - 1], s[|s| - 1];
      var rest := SortBy(init, key);
      SortStable(init, key, keep, v);
      assert s == init + [x];
      FilterAppend(init, [x], keep);
      if keep(x) {
        InsertKeptLast(x, rest, key, keep);
      } else {
        InsertDropped(x, rest, key, keep);
      }
    }
  }

  lemma {:induction false} InsertDistinct<T, K>(x: T, s: seq<T>, key: T -> real, id: T -> K)
    requires SortedBy(s, key)
    requires DistinctBy(s, id)
    requires forall i :: 0 <= i < |s| ==> id(s[i]) != id(x)
    ensures DistinctBy(Insert(x, s, key), id)
    decreases |s|
  {
    if |s| > 0 && key(s[0]) <= key(x) {
      InsertDistinct(x, s[1..], key, id);
      InsertFacts(x, s[1..], key);
      var tail := Insert(x, s[1..], key);
      forall k | 0 <= k < |tail|
        ensures id(s[0]) != id(tail[k])
      {
        assert tail[k] in multiset(tail);
        if tail[k] != x {
          assert tail[k] in s[1..];
        }
      }
    }
  }

  /** Sorting a sequence whose elements have distinct identities keeps them distinct. */
  lemma {:induction false} SortDistinct<T, K>(s: seq<T>, key: T -> real, id: T -> K)
    requires DistinctBy(s, id)
    ensures DistinctBy(SortBy(s, key), id)
    decreases |s|
  {
    if |s| > 0 {
      var init, x := s[..|s| - 1], s[|s| - 1];
      var rest := SortBy(init, key);
      SortDistinct(init, key, id);
      forall i | 0 <= i < |rest|
        ensures id(rest[i]) != id(x)
      {
        assert rest[i] in multiset(init);
        var j :| 0 <= j < |init| && init[j] == rest[i];
        assert s[j] == rest[i];
      }
      InsertDistinct(x, rest, key, id);
    }
  }
}

=== FILE: tables.dfy ===
/** The two uniform tables the dashboard works on, after loading: one row per
    sales line and one row per stock snapshot. Every cell pandas may hold as
    NaN or NaT is an Option; the product code is always a string because the
    loader converts the whole column with `astype(str)`. */
module Tables {
  import opened Wrappers

  /** A pandas timestamp: nanoseconds since the epoch. */
  type Instant = int

  const NanosPerDay: int := 86_400_000_000_000

  /** The calendar day of an instant (`.dt.date`), as a day number since the
      epoch. Dafny's division rounds down for a positive divisor, as a
      timestamp's date does for instants before the epoch. */
  function DayOf(t: Instant): (d: int)
    ensures d * NanosPerDay <= t < (d + 1) * NanosPerDay
  {
    t / NanosPerDay
  }

  /** One sales line (columns Product_Code, Product_Description, Branch_Name,
      Department, SubDepartment, Date_Time, Qty_Sold). */
  datatype SalesRow = SalesRow(
    code: string,
    description: Option<string>,
    branch: Option<string>,
    department: Option<string>,
    subDepartment: Option<string>,
    dateTime: Option<Instant>,
    qtySold: Option<real>)

  /** One stock snapshot (columns Product_Code, Product_Description,
      Branch_Name, Major_Department, Department_Name, Date_Stamp,
      Stock_on_Hand). */
  datatype StockRow = StockRow(
    code: string,
    description: Option<string>,
    branch: Option<string>,
    majorDepartment: Option<string>,
    departmentName: Option<string>,
    dateStamp: Option<Instant>,
    stockOnHand: Option<real>)

  /** An inclusive window of calendar days, `date_range[0]` to `date_range[1]`. */
  datatype DateRange = DateRange(start: int, end: int)

  /** `isin(selected)`: a missing value is never in a selection of strings. */
  predicate IsIn(v: Option<string>, selected: set<string>) {
    v.Some? && v.value in selected
  }

  /** `.dt.date.between(start, end)`: NaT never lies in a window. */
  predicate InWindow(t: Option<Instant>, range: DateRange) {
    t.Some? && range.start <= DayOf(t.value) <= range.end
  }
}

=== FILE: text.dfy ===
/** String operations the dashboard relies on through Python and pandas:
    decimal rendering of an integer (`f"{int(q)}"`), case-insensitive
    substring search (`str.contains(..., case=False)`), Python's ordering of
    strings, and `sorted(set(...))`. */
module Text {
  import opened Wrappers

  // ---------------------------------------------------------------------
  // Decimal rendering

  predicate IsDigit(c: char) {
    '0' <= c <= '9'
  }

  function DigitChar(d: int): (c: char)
    requires 0 <= d < 10
    ensures IsDigit(c)
  {
    (48 + d) as char
  }

  function DigitValue(c: char): (d: int)
    requires IsDigit(c)
    ensures 0 <= d < 10
  {
    c as int - 48
  }

  /** Python's `str(n)` for a non-negative integer: decimal digits, no
      leading zero. */
  function NatToString(n: nat): (s: string)
    ensures |s| > 0
    ensures forall i :: 0 <= i < |s| ==> IsDigit(s[i])
    ensures |s| > 1 ==> s[0] != '0'
    decreases n
  {
    if n < 10 then [DigitChar(n)]
    else NatToString(n / 10) + [DigitChar(n % 10)]
  }

  /** The value of a non-empty run of decimal digits, or None. */
  function ParseNat(s: string): (r: Option<nat>)
    ensures r.Some? <==> |s| > 0 && forall i :: 0 <= i < |s| ==> IsDigit(s[i])
    decreases |s|
  {
    if |s| == 0 || !IsDigit(s[|s| - 1]) then None
    else if |s| == 1 then Some(DigitValue(s[0]))
    else
      match ParseNat(s[..|s| - 1])
      case None => None
      case Some(v) => Some(v * 10 + DigitValue(s[|s| - 1]))
  }

  /** A run of digits without a superfluous leading zero is the rendering of
      its value: parsing is one-to-one on canonical numerals. */
  lemma {:induction false} ParseNatCanonical(s: string)
    requires ParseNat(s).Some?
    requires |s| > 1 ==> s[0] != '0'
    ensures s == NatToString(ParseNat(s).value)
    decreases |s|
  {
    var n := ParseNat(s).value;
    if |s| == 1 {
      assert DigitChar(DigitValue(s[0])) == s[0];
    } else {
      var prefix := s[..|s| - 1];
      var v := ParseNat(prefix).value;
      var d := DigitValue(s[|s| - 1]);
      ParseNatCanonical(prefix);
      assert v >= 1;
      assert n == v * 10 + d && 0 <= d < 10;
      assert n / 10 == v && n % 10 == d;
      assert DigitChar(d) == s[|s| - 1];
      assert s == prefix + [s[|s| - 1]];
    }
  }

  /** Rendering and reading back agree. */
  lemma {:induction false} NatToStringRoundTrip(n: nat)
    ensures ParseNat(NatToString(n)) == Some(n)
    decreases n
  {
    if n >= 10 {
      NatToStringRoundTrip(n / 10);
      var s := NatToString(n);
      assert s[..|s| - 1] == NatToString(n / 10);
    }
  }

  // ---------------------------------------------------------------------
  // Case-insensitive substring search

  /** Lower-cases the ASCII letters and leaves every other character alone. */
  function LowerChar(c: char): (l: char)
    ensures 'A' <= c <= 'Z' ==> l as int == c as int + 32
    ensures !('A' <= c <= 'Z') ==> l == c
  {
    if 'A' <= c <= 'Z' then (c as int + 32) as char else c
  }

  function Lower(s: string): (r: string)
    ensures |r| == |s|
    ensures forall i :: 0 <= i < |s| ==> r[i] == LowerChar(s[i])
  {
    seq(|s|, i requires 0 <= i < |s| => LowerChar(s[i]))
  }

  /** `q` occurs in `s` at position `i`. */
  predicate OccursAt(q: string, s: string, i: int) {
    0 <= i && i + |q| <= |s| && s[i..i + |q|] == q
  }

  /** Scans `s` from the left for an occurrence of `q`. */
  function Contains(s: string, q: string): (b: bool)
    decreases |s|
  {
    q <= s || (|s| > 0 && Contains(s[1..], q))
  }

  /** The scan finds `q` exactly when `q` occurs somewhere in `s`. */
  lemma {:induction false} ContainsIffOccurs(s: string, q: string)
    ensures Contains(s, q) <==> exists i :: OccursAt(q, s, i)
    decreases |s|
  {
    if q <= s {
      assert OccursAt(q, s, 0);
    } else if |s| > 0 {
      ContainsIffOccurs(s[1..], q);
      if Contains(s[1..], q) {
        var i :| OccursAt(q, s[1..], i);
        assert s[1..][i..i + |q|] == s[i + 1..i + 1 + |q|];
        assert OccursAt(q, s, i + 1);
      }
      if i :| OccursAt(q, s, i) {
        assert i != 0;
        assert s[1..][i - 1..i - 1 + |q|] == s[i..i + |q|];
        assert OccursAt(q, s[1..], i - 1);
      }
    }
  }

  /** `str.contains(query, case=False)` for a query without regular-expression
      metacharacters, with ASCII case folding. */
  function ContainsIgnoringCase(s: string, q: string): (b: bool)
    ensures b <==> exists i :: OccursAt(Lower(q), Lower(s), i)
  {
    ContainsIffOccurs(Lower(s), Lower(q));
    Contains(Lower(s), Lower(q))
  }

  // ---------------------------------------------------------------------
  // Python's string ordering and sorted(set(...))

  /** Python's `a < b` on strings: lexicographic by code point. */
  predicate Less(a: string, b: string)
    decreases |a|
  {
    if |a| == 0 then |b| > 0
    else if |b| == 0 then false
    else if a[0] < b[0] then true
    else if a[0] == b[0] then Less(a[1..], b[1..])
    else false
  }

  lemma {:induction false} LessIrreflexive(a: string)
    ensures !Less(a, a)
    decreases |a|
  {
    if |a| > 0 {
      LessIrreflexive(a[1..]);
    }
  }

  lemma {:induction false} LessTransitive(a: string, b: string, c: string)
    requires Less(a, b) && Less(b, c)
    ensures Less(a, c)
    decreases |a|
  {
    if |a| > 0 && a[0] == b[0] && b[0] == c[0] {
      LessTransitive(a[1..], b[1..], c[1..]);
    }
  }

  lemma {:induction false} LessTotal(a: string, b: string)
    ensures a == b || Less(a, b) || Less(b, a)
    decreases |a|
  {
    if |a| > 0 && |b| > 0 && a[0] == b[0] {
      LessTotal(a[1..], b[1..]);
      if a[1..] == b[1..] {
        assert a == [a[0]] + a[1..] && b == [b[0]] + b[1..];
      }
    }
  }

  lemma LessAsymmetric(a: string, b: string)
    requires Less(a, b)
    ensures !Less(b, a)
  {
    if Less(b, a) {
      LessTransitive(a, b, a);
      LessIrreflexive(a);
    }
  }

  predicate StrictlyAscending(s: seq<string>) {
    forall i, j :: 0 <= i < j < |s| ==> Less(s[i], s[j])
  }

  /** Adds `x` to a strictly ascending list unless it is already there. */
  function InsertUnique(x: string, s: seq<string>): seq<string>
    decreases |s|
  {
    if |s| == 0 then [x]
    else if x == s[0] then s
    else if Less(x, s[0]) then [x] + s
    else [s[0]] + InsertUnique(x, s[1..])
  }

  lemma {:induction false} InsertUniqueFacts(x: string, s: seq<string>)
    requires StrictlyAscending(s)
    ensures StrictlyAscending(InsertUnique(x, s))
    ensures forall y :: y in InsertUnique(x, s) <==> y == x || y in s
    decreases |s|
  {
    if |s| > 0 && x != s[0] && Less(x, s[0]) {
      forall j | 0 < j < |s|
        ensures Less(x, s[j])
      {
        LessTransitive(x, s[0], s[j]);
      }
    } else if |s| > 0 && x != s[0] {
      LessTotal(x, s[0]);
      InsertUniqueFacts(x, s[1..]);
      var tail := InsertUnique(x, s[1..]);
      assert s == [s[0]] + s[1..];
      forall k | 0 <= k < |tail|
        ensures Less(s[0], tail[k])
      {
        assert tail[k] in tail;
      }
    }
  }

  /** `sorted(set(xs))`: the distinct values of `xs` in ascending order. */
  function SortedUnique(xs: seq<string>): (r: seq<string>)
    ensures StrictlyAscending(r)
    ensures forall x :: x in r <==> x in xs
    decreases |xs|
  {
    if |xs| == 0 then []
    else
      var rest := SortedUnique(xs[..|xs| - 1]);
      InsertUniqueFacts(xs[|xs| - 1], rest);
      assert xs == xs[..|xs| - 1] + [xs[|xs| - 1]];
      InsertUnique(xs[|xs| - 1], rest)
  }

  /** A set of strings has exactly one strictly ascending listing, so
      `SortedUnique` is determined by the set of values alone. */
  lemma {:induction false} AscendingListingUnique(a: seq<string>, b: seq<string>)
    requires StrictlyAscending(a) && StrictlyAscending(b)
    requires forall x :: x in a <==> x in b
    ensures a == b
    decreases |a|
  {
    SameElementsBothEmpty(a, b);
    if |a| > 0 {
      if a[0] != b[0] {
        assert a[0] in b;
        assert b[0] in a;
        var i :| 0 <= i < |b| && b[i] == a[0];
        var j :| 0 <= j < |a| && a[j] == b[0];
        assert Less(b[0], a[0]);
        assert Less(a[0], b[0]);
        LessAsymmetric(a[0], b[0]);
      }
      LessIrreflexive(a[0]);
      forall x
        ensures x in a[1..] <==> x in b[1..]
      {
        if x in a[1..] {
          var i :| 1 <= i < |a| && a[i] == x;
          assert Less(a[0], a[i]);
          assert x in a;
          assert x in b;
          var j :| 0 <= j < |b| && b[j] == x;
          assert j != 0;
          assert b[1..][j - 1] == x;
        }
        if x in b[1..] {
          var i :| 1 <= i < |b| && b[i] == x;
          assert Less(b[0], b[i]);
          assert x in b;
          assert x in a;
          var j :| 0 <= j < |a| && a[j] == x;
          assert j != 0;
          assert a[1..][j - 1] == x;
        }
      }
      AscendingListingUnique(a[1..], b[1..]);
      assert a == [a[0]] + a[1..] && b == [b[0]] + b[1..];
    }
  }

  lemma SameElementsBothEmpty(a: seq<string>, b: seq<string>)
    requires forall x :: x in a <==> x in b
    ensures |a| == 0 <==> |b| == 0
  {
    if |a| > 0 {
      assert a[0] in a;
    }
    if |b| > 0 {
      assert b[0] in b;
    }
  }
}

=== FILE: utf8.dfy ===
/** Strict UTF-8 as Python's `bytes.decode('utf-8')` applies it (RFC 3629,
    section 4): overlong forms, surrogates and code points above U+10FFFF are
    rejected. The loader tries this decoder first on uploaded CSV content. */
module Utf8 {
  import opened Wrappers

  type Byte = b: int | 0 <= b < 256

  predicate IsContinuation(b: Byte) {
    0x80 <= b < 0xC0
  }

  /** A Unicode scalar value: what a Dafny `char` holds. */
  predicate IsScalar(cp: int) {
    0 <= cp < 0xD800 || 0xE000 <= cp < 0x11_0000
  }

  /** The length of the well-formed sequence at the start of `b`, or 0 when
      `b` does not start with one (RFC 3629, section 4). */
  function SequenceLength(b: seq<Byte>): (n: nat)
    ensures n <= 4 && n <= |b|
  {
    if |b| == 0 then 0
    else if b[0] < 0x80 then 1
    else if 0xC2 <= b[0] <= 0xDF then
      if |b| >= 2 && IsContinuation(b[1]) then 2 else 0
    else if 0xE0 <= b[0] <= 0xEF then
      var lo := if b[0] == 0xE0 then 0xA0 else 0x80;
      var hi := if b[0] == 0xED then 0x9F else 0xBF;
      if |b| >= 3 && lo <= b[1] <= hi && IsContinuation(b[2]) then 3 else 0
    else if 0xF0 <= b[0] <= 0xF4 then
      var lo := if b[0] == 0xF0 then 0x90 else 0x80;
      var hi := if b[0] == 0xF4 then 0x8F else 0xBF;
      if |b| >= 4 && lo <= b[1] <= hi && IsContinuation(b[2]) && IsContinuation(b[3]) then 4 else 0
    else 0
  }

  /** The code point a well-formed sequence of length `n` encodes. */
  function CodePoint(b: seq<Byte>, n: nat): (cp: int)
    requires 0 < n && n == SequenceLength(b)
    ensures IsScalar(cp)
    ensures n == 1 ==> cp < 0x80
    ensures n == 2 ==> 0x80 <= cp < 0x800
    ensures n == 3 ==> 0x800 <= cp < 0x1_0000
    ensures n == 4 ==> 0x1_0000 <= cp < 0x11_0000
  {
    if n == 1 then b[0] as int
    else if n == 2 then Combine2(b[0], b[1])
    else if n == 3 then Combine3(b[0], b[1], b[2])
    else Combine4(b[0], b[1], b[2], b[3])
  }

  function Combine2(b0: int, b1: int): int {
    (b0 - 0xC0) * 64 + (b1 - 0x80)
  }

  function Combine3(b0: int, b1: int, b2: int): int {
    (b0 - 0xE0) * 4096 + (b1 - 0x80) * 64 + (b2 - 0x80)
  }

  function Combine4(b0: int, b1: int, b2: int, b3: int): int {
    (b0 - 0xF0) * 262144 + (b1 - 0x80) * 4096 + (b2 - 0x80) * 64 + (b3 - 0x80)
  }

  /** Decodes the whole of `b`, or None at the first ill-formed sequence. */
  function Decode(b: seq<Byte>): (r: Option<string>)
    ensures r.Some? ==> |r.value| <= |b|
    ensures |b| > 0 && SequenceLength(b) == 0 ==> r.None?
    decreases |b|
  {
    if |b| == 0 then Some([])
    else
      var n := SequenceLength(b);
      if n == 0 then None
      else
        match Decode(b[n..])
        case None => None
        case Some(rest) => Some([CodePoint(b, n) as char] + rest)
  }

  /** The UTF-8 encoding of one character. */
  function EncodeChar(c: char): (b: seq<Byte>)
    ensures 1 <= |b| <= 4
  {
    var cp := c as int;
    if cp < 0x80 then [cp]
    else if cp < 0x800 then [0xC0 + cp / 64, 0x80 + cp % 64]
    else if cp < 0x1_0000 then [0xE0 + cp / 4096, 0x80 + (cp / 64) % 64, 0x80 + cp % 64]
    else [0xF0 + cp / 262144, 0x80 + (cp / 4096) % 64, 0x80 + (cp / 64) % 64, 0x80 + cp % 64]
  }

  function Encode(s: string): seq<Byte>
    decreases |s|
  {
    if |s| == 0 then [] else EncodeChar(s[0]) + Encode(s[1..])
  }

  /** The encoding of a character is one well-formed sequence holding it. */
  lemma EncodeCharDecodes(c: char, rest: seq<Byte>)
    ensures SequenceLength(EncodeChar(c) + rest) == |EncodeChar(c)|
    ensures CodePoint(EncodeChar(c) + rest, |EncodeChar(c)|) == c as int
  {
    var cp := c as int;
    var e := EncodeChar(c);
    var b := e + rest;
    assert b[..|e|] == e;
    if cp < 0x80 {
    } else if cp < 0x800 {
      Split2(cp);
      assert b[0] == e[0] && b[1] == e[1];
    } else if cp < 0x1_0000 {
      Split3(cp);
      assert b[0] == e[0] && b[1] == e[1] && b[2] == e[2];
    } else {
      Split4(cp);
      assert b[0] == e[0] && b[1] == e[1] && b[2] == e[2] && b[3] == e[3];
    }
  }

  lemma Split2(cp: int)
    requires 0x80 <= cp < 0x800
    ensures 0xC2 <= 0xC0 + cp / 64 <= 0xDF && 0 <= cp % 64 < 64
    ensures Combine2(0xC0 + cp / 64, 0x80 + cp % 64) == cp
  {
  }

  lemma Split3(cp: int)
    requires 0x800 <= cp < 0x1_0000 && IsScalar(cp)
    ensures 0xE0 <= 0xE0 + cp / 4096 <= 0xEF && 0 <= (cp / 64) % 64 < 64 && 0 <= cp % 64 < 64
    ensures cp / 4096 == 0 ==> 0xA0 <= 0x80 + (cp / 64) % 64
    ensures cp / 4096 == 0xD ==> 0x80 + (cp / 64) % 64 <= 0x9F
    ensures Combine3(0xE0 + cp / 4096, 0x80 + (cp / 64) % 64, 0x80 + cp % 64) == cp
  {
    var q := cp / 64;
    assert q / 64 == cp / 4096;
  }

  lemma Split4(cp: int)
    requires 0x1_0000 <= cp < 0x11_0000
    ensures 0xF0 <= 0xF0 + cp / 262144 <= 0xF4
    ensures 0 <= (cp / 4096) % 64 < 64 && 0 <= (cp / 64) % 64 < 64 && 0 <= cp % 64 < 64
    ensures cp / 262144 == 0 ==> 0x90 <= 0x80 + (cp / 4096) % 64
    ensures cp / 262144 == 4 ==> 0x80 + (cp / 4096) % 64 <= 0x8F
    ensures Combine4(0xF0 + cp / 262144, 0x80 + (cp / 4096) % 64, 0x80 + (cp / 64) % 64, 0x80 + cp % 64) == cp
  {
    var q := cp / 64;
    var r := q / 64;
    assert r == cp / 4096;
    assert r / 64 == cp / 262144;
  }

  /** Every string survives an encode/decode round trip. */
  lemma {:induction false} DecodeEncode(s: string)
    ensures Decode(Encode(s)) == Some(s)
    decreases |s|
  {
    if |s| > 0 {
      var head := EncodeChar(s[0]);
      var rest := Encode(s[1..]);
      DecodeEncode(s[1..]);
      EncodeCharDecodes(s[0], rest);
      var b := head + rest;
      assert Encode(s) == b;
      assert b[|head|..] == rest;
      assert (CodePoint(b, |head|) as char) == s[0];
      assert Decode(b) == Some([s[0]] + s[1..]);
      assert [s[0]] + s[1..] == s;
    }
  }

  /** Whatever the decoder accepts is exactly the encoding of what it returns. */
  lemma {:induction false} EncodeDecode(b: seq<Byte>)
    requires Decode(b).Some?
    ensures Encode(Decode(b).value) == b
    decreases |b|
  {
    if |b| > 0 {
      var n := DecodeHead(b);
      EncodeDecode(b[n..]);
      Reassemble(b, n, Decode(b[n..]).value);
    }
  }

  /** A well-formed first sequence followed by the encoding of `rest`. */
  lemma Reassemble(b: seq<Byte>, n: nat, rest: string)
    requires 0 < n == SequenceLength(b)
    requires Encode(rest) == b[n..]
    ensures Encode([CodePoint(b, n) as char] + rest) == b
  {
    SequenceReencodes(b, n);
    EncodeCons(CodePoint(b, n) as char, rest);
    assert b == b[..n] + b[n..];
  }

  /** A successful decode of a non-empty input splits off its first sequence. */
  lemma DecodeHead(b: seq<Byte>) returns (n: nat)
    requires |b| > 0 && Decode(b).Some?
    ensures 0 < n == SequenceLength(b)
    ensures Decode(b[n..]).Some?
    ensures Decode(b).value == [CodePoint(b, n) as char] + Decode(b[n..]).value
  {
    n := SequenceLength(b);
  }

  lemma EncodeCons(c: char, rest: string)
    ensures Encode([c] + rest) == EncodeChar(c) + Encode(rest)
  {
    assert ([c] + rest)[1..] == rest;
  }

  /** Re-encoding the code point of a well-formed sequence gives back its bytes. */
  lemma SequenceReencodes(b: seq<Byte>, n: nat)
    requires 0 < n && n == SequenceLength(b)
    ensures EncodeChar(CodePoint(b, n) as char) == b[..n]
  {
    if n == 2 {
      Join2(b[0], b[1]);
    } else if n == 3 {
      Join3(b[0], b[1], b[2]);
    } else if n == 4 {
      Join4(b[0], b[1], b[2], b[3]);
    }
  }

  lemma Join2(b0: int, b1: int)
    requires 0xC2 <= b0 <= 0xDF && 0x80 <= b1 < 0xC0
    ensures Combine2(b0, b1) / 64 == b0 - 0xC0 && Combine2(b0, b1) % 64 == b1 - 0x80
  {
  }

  lemma Join3(b0: int, b1: int, b2: int)
    requires 0xE0 <= b0 <= 0xEF && 0x80 <= b1 < 0xC0 && 0x80 <= b2 < 0xC0
    ensures Combine3(b0, b1, b2) / 4096 == b0 - 0xE0
    ensures (Combine3(b0, b1, b2) / 64) % 64 == b1 - 0x80
    ensures Combine3(b0, b1, b2) % 64 == b2 - 0x80
  {
    var cp := Combine3(b0, b1, b2);
    assert cp / 64 == (b0 - 0xE0) * 64 + (b1 - 0x80);
  }

  lemma Join4(b0: int, b1: int, b2: int, b3: int)
    requires 0xF0 <= b0 <= 0xF4 && 0x80 <= b1 < 0xC0 && 0x80 <= b2 < 0xC0 && 0x80 <= b3 < 0xC0
    ensures Combine4(b0, b1, b2, b3) / 262144 == b0 - 0xF0
    ensures (Combine4(b0, b1, b2, b3) / 4096) % 64 == b1 - 0x80
    ensures (Combine4(b0, b1, b2, b3) / 64) % 64 == b2 - 0x80
    ensures Combine4(b0, b1, b2, b3) % 64 == b3 - 0x80
  {
    var cp := Combine4(b0, b1, b2, b3);
    assert cp / 64 == (b0 - 0xF0) * 4096 + (b1 - 0x80) * 64 + (b2 - 0x80);
    assert cp / 4096 == (b0 - 0xF0) * 64 + (b1 - 0x80);
  }

  /** Bytes below 0x80 decode one-to-one to the characters with those codes. */
  lemma {:induction false} AsciiDecodes(b: seq<Byte>)
    requires forall i :: 0 <= i < |b| ==> b[i] < 0x80
    ensures Decode(b).Some?
    ensures |Decode(b).value| == |b|
    ensures forall i :: 0 <= i < |b| ==> Decode(b).value[i] as int == b[i]
    decreases |b|
  {
    if |b| > 0 {
      AsciiDecodes(b[1..]);
    }
  }
}

=== FILE: wrappers.dfy ===
/** Option and Result: pandas' missing values (NaN, NaT) become None, and
    exceptions that the dashboard catches become Failure. */
module Wrappers {

  datatype Option<+T> = None | Some(value: T) {

    /** The value, or the given default when absent (pandas' `fillna`). */
    function GetOr(default: T): T {
      match this
      case Some(v) => v
      case None => default
    }
  }

  datatype Result<+R, +E> = Success(value: R) | Failure(error: E)
}
